=== FILE: README.md ===
# Scanse Sweep lidar driver (lidar.c) in Dafny

This project models the Scanse Sweep driver of the rn1-brain robot firmware:

- **`Protocol`** (protocol.dfy): the session state machine, as pure transition functions over a `Session` value.
  - `lidar_on` and `lidar_off`.
  - The 1 kHz tick `lidar_fsm`: power settle, then the motor-status poll countdown.
  - The configuration arms of the reply interrupt `lidar_rx_done_inthandler`: the `MZ`/`MS`/`LR`/`DS` handshake.
  - The session side of its RUNNING arm: the decaying fault penalty and the switch to ERROR.
  - Lemmas about runs of events, built from these functions.
- **`Packet`** (packet.dfy): what the RUNNING arm does with one 7-byte packet.
  - Validation: checksum and error bits.
  - Sync detection.
  - The half-degree slot index.
  - The fixed-point polar-to-Cartesian conversion, with `uint32_t`/`int32_t` wrap-around written out.
  - The single slot write, as a `Decode` function and an `Apply` function on a scan buffer.
- **`Driver`** (driver.dfy): the driver as the C code has it, with state updated in place.
  - Class `Lidar` holds:
    - the module-level variables;
    - the 16-byte `lidar_txbuf` (an `array`);
    - the two `lidar_scans` buffers (class `Scan`, each with a 720-slot `array`);
    - the two roles `acq_lidar_scan` and `prev_lidar_scan`.
  - Every entry point is a method. Each is proved to move the session exactly as the `Protocol` function says.
  - The RUNNING arm is also proved against `Packet.Decode`/`Apply`:
    - it swaps the roles exactly on a sync;
    - it stamps the two poses;
    - it changes at most one slot of the acquisition buffer;
    - it never changes the finished buffer.
- **`IgnoreMask`** (ignore_mask.dfy): the self-occlusion filter.
  - `generate_lidar_ignore` is a nested-loop method on the 360-entry mask array. It is proved to set exactly the buckets of close returns and their two neighbours.
  - The `lidar_ignore_len` curves are modelled with their shape: symmetric, interpolated and within the 14-bit distance range.
- **`Bytes`** (bytes.dfy): octets and the ASCII frames of the command protocol.

The sensor, the serial DMA and the robot pose are not modelled; they become inputs and logs:

- A reply is the 16-byte receive buffer given to `RxDone`.
- A packet carries the robot pose `cur_pos` and the sine table as parameters.
- The transport requests made by `lidar_send_cmd` and `lidar_start_acq` are appended to an `io` log.

## Model

| member | source | states |
|---|---|---|
| Bytes.StartsWithIff | lidar.c:439-442 | a reply matches exactly when every compared byte equals the expected one |
| Packet.Checksum | lidar.c:562-563 | the checksum is always in 0..254, so a checksum byte of 255 never matches |
| Packet.ErrorBitsIff | lidar.c:564 | masking the status byte with 0b11111110 is nonzero exactly when the byte is 2 or more |
| Packet.PacketOk | lidar.c:562-564 | a packet that passes has a checksum byte below 255 and a status byte of 0 or 1 |
| Packet.Le16 | lidar.c:594-595 | the 16-bit field is in 0..65535 and its low and high bytes are the two packet bytes |
| Packet.Slot | lidar.c:598-599 | slot r holds the angles 8r..8r+7 (in 1/16 degree), and it is inside the 720-slot scan exactly when the angle is below a full turn (5760) |
| Packet.SyncIsStatusOne | lidar.c:564-583 | a packet that passes validation is a sync (`IsSync`, the nonzero status test) exactly when its status byte is 1 |
| Packet.Charge | lidar.c:564-603 | the penalty trips only on a failed packet whose +20 passes 100; a failure adds 20; a good in-range packet decays a nonzero penalty by 1; a good out-of-range packet decays it by 1 and then adds 20; the penalty never goes negative |
| Packet.U32 | lidar.c:613 | conversion to `uint32_t` yields a value in 0..2^32-1 congruent to the input |
| Packet.I32 | lidar.c:618-619 | `int32_t` wrap yields a value in range, congruent to the input, and equal to it when it already fits |
| Packet.Shr | lidar.c:614-615 | a logical right shift by at least one halves a non-negative value or less |
| Packet.SinIndex | lidar.c:614 | `y_idx` fits an `int32_t` and is non-negative |
| Packet.CosIndex | lidar.c:615 | `x_idx` fits an `int32_t` and is non-negative |
| Packet.CosArgumentIsComplement | lidar.c:615 | the cosine argument plus the heading is a quarter turn modulo a full turn |
| Packet.Heading | lidar.c:613 | `ang32` is in 0..2^32-1 and congruent modulo 2^32 to the pose heading plus the sample angle |
| Packet.PointX | lidar.c:611-618 | the stored x is an `int32_t` congruent modulo 2^32 to the pose x plus the fixed-point offset; `PointNearPose` and `FixMulExact` prove it lies within the distance of the pose |
| Packet.PointY | lidar.c:611-619 | the stored y is an `int32_t` congruent modulo 2^32 to the pose y plus the fixed-point offset; `PointNearPose` and `FixMulExact` prove it lies within the distance of the pose |
| Packet.FixMul | lidar.c:618-619 | the shifted 32-bit product `(lut * len) >> 15` lies in -2^16..2^16-1; `FixMulExact` gives its exact value when nothing wraps |
| Packet.FixMulExact | lidar.c:618-619 | below 6553 cm with an `int16_t` table entry the 32-bit product cannot wrap, and the offset is at most the distance in mm |
| Packet.PointNearPose | lidar.c:611-619 | the stored point lies within the measured distance of the robot on each axis when nothing wraps |
| Packet.Decode | lidar.c:558-619 | one packet's outcome: the budget is `Charge`; sync exactly for a good packet with status 1; a slot write exactly when the packet is good and in range, to slot `Slot`; "no return" exactly for distances under 2 cm; otherwise the stored x/y |
| Packet.Apply | lidar.c:605-619 | a slot write changes only its slot; "no return" clears `valid` and keeps the old x/y; a store writes a valid sample |
| Protocol.OnSpec | lidar.c:375-386 | an out-of-range request changes nothing; otherwise the settings are stored, power is on, and the state becomes `Reconf` from `Running` and `WaitPowered` from anywhere else; the error status is never touched |
| Protocol.OffSpec | lidar.c:388-392 | power off and state `Off`, and nothing else changes |
| Protocol.TickSpec | lidar.c:396-431 | the only state change is `WaitPowered`→`PreconfWaitReady` with the poll armed at 1000; "MZ\n" is sent exactly on the tick that counts a polling state's poll down to zero; `Conf1`, `Conf2`, `WaitStartAck`, `Running` and the inert states are left exactly as they are |
| Protocol.ConfigReply | lidar.c:437-556 | only the state, the poll count, the penalty and the log change. An echo state advances on a match and goes to `Error` otherwise. A polling state advances on a match and otherwise only re-arms the poll at 100. The log grows by exactly one request on a match, except in `Conf2`. Only the start acknowledgement resets the penalty. Other states are untouched. `RxSpec` states the exact session per state |
| Protocol.PacketReply | lidar.c:558-603 | the penalty becomes `Charge`'s; the state becomes `Error` and the status byte is recorded exactly when `Charge` trips; nothing else changes |
| Protocol.RxSpec | lidar.c:433-632 | echo states advance exactly on the expected echo, else `Error`; polling states advance on "MZ00", else re-arm the poll at 100; for every recognised reply the exact new session: the speed command from `PreconfWaitReady`, the rate command from `Conf1`, the poll re-armed at 1000 from `Conf2`, "DS\n" from `WaitReady`, and from `WaitStartAck` streaming started with the penalty reset to 0; running follows `Charge`; all other states ignore replies |
| Protocol.PowerSettle | lidar.c:402-411 | each power-up tick counts once, and the 2001st arms the first poll 1000 ticks ahead |
| Protocol.PollCountdown | lidar.c:413-425 | n polling ticks count the poll down by n and send exactly one query when it reaches zero |
| Protocol.NoRepollWithoutReply | lidar.c:413-425 | once the countdown is past zero, ticks never poll again |
| Protocol.OneByteOffFails | lidar.c:461-556 | a matching echo advances the handshake, and the same echo with any one compared byte changed sends the session to `Error` |
| Protocol.InertStaysPut | lidar.c:396-632 | ticks and replies never move `Uninit`, `Off`, `Error` or `Reconf` |
| Protocol.PowerUpToFirstPoll | lidar.c:402-425 | from power-up, the settle delay and the countdown reach `PreconfWaitReady` having sent one motor query |
| Protocol.ConfigHandshake | lidar.c:437-511 | "MZ00", the speed echo and the rate echo send the speed and rate commands and reach `WaitReady` with the poll armed |
| Protocol.StartHandshake | lidar.c:513-556 | the second poll, "MZ00" and "DS00P" send the query and "DS\n", start streaming, and reach `Running` with a zero penalty |
| Protocol.FirstPollToRunning | lidar.c:437-556 | the two handshakes together reach `Running` |
| Protocol.BringUp | lidar.c:375-556 | from power-up the scripted replies reach `Running` with a clean budget, after exactly the six transport requests of the protocol in order |
| Protocol.BudgetKeepsRunning | lidar.c:564-603 | with c charged packets the session keeps running while p+20c ≤ 100, and the penalty ends at most p+20c |
| Protocol.FaultBurst | lidar.c:564-578 | consecutive failed packets add 20 each and trip `Error` exactly when the total passes 100 |
| Protocol.ValidPacketsNeverTrip | lidar.c:581-603 | packets that pass validation never trip `Error`, even with out-of-range angles |
| Protocol.AsWrittenNeverConfigures | lidar.c:437-556 | with the row-pointer comparison as written, no reply is ever recognised: polling only re-arms and every echo state fails |
| Driver.Scan.constructor | lidar.c:364 | a zeroed buffer of 720 invalid samples |
| Driver.Lidar.constructor | lidar.c:342-369 | the zero-initialised session with fps 2 and smp 2; a zeroed transmit buffer; two distinct scan buffers of 720 invalid zero samples with zero poses |
| Driver.Lidar.Init | lidar.c:676-698 | only the state changes, to `Off` |
| Driver.Lidar.SendCommand | lidar.c:638-656 | logs the first `txLen` bytes of the transmit buffer and the reply length |
| Driver.Lidar.StartAcquisition | lidar.c:662-673 | logs the switch to streaming |
| Driver.Lidar.SwitchOn | lidar.c:375-386 | the session moves as `OnSpec` |
| Driver.Lidar.SwitchOff | lidar.c:388-392 | the session moves as `OffSpec` |
| Driver.Lidar.Tick | lidar.c:396-431 | the session moves as `TickSpec`; a command it sends is what the transmit buffer begins with, the buffer's other bytes are unchanged, and the whole buffer is unchanged when nothing is sent |
| Driver.Lidar.RxDone | lidar.c:433-632 | the session moves as `RxSpec`; when running, the roles swap exactly on a sync, the poses are stamped, the acquisition buffer becomes `Apply(Decode(...).write, ...)`, and the finished buffer is unchanged; a command it sends is what the transmit buffer begins with, the buffer's other bytes are unchanged, and the whole buffer is unchanged when nothing is sent |
| Driver.Lidar.ConfigArm | lidar.c:437-556 | the session moves as `ConfigReply`; a command it sends is what the transmit buffer begins with, the buffer's other bytes are unchanged, and the whole buffer is unchanged when nothing is sent |
| Driver.Lidar.PollArm | lidar.c:437-534 | the polling states move as `ConfigReply`, sending the speed command or "DS\n" from the start of the transmit buffer; the rest of the buffer is unchanged, and the whole buffer is unchanged when nothing is sent |
| Driver.Lidar.WriteSetCommand | lidar.c:445-449 | the transmit buffer begins with the two letters, '0', the digit and a line feed, and its other bytes are unchanged |
| Driver.Lidar.SendRate | lidar.c:473-481 | `LR0<smp>\n` is sent from the transmit buffer with a 9-byte reply expected, and the state becomes `Conf2` |
| Driver.Lidar.EchoArm | lidar.c:461-556 | the echo states move as `ConfigReply`, sending the rate command from the start of the transmit buffer or starting the stream; the rest of the buffer is unchanged, and the whole buffer is unchanged when nothing is sent |
| Driver.Lidar.BeginScan | lidar.c:583-591 | the roles swap; the end pose of the finished buffer and the start pose of the new acquisition buffer are the current pose |
| Driver.Lidar.WriteSlot | lidar.c:607-619 | slot k of the acquisition buffer becomes v, and no other slot changes |
| Driver.Lidar.RunningPacket | lidar.c:558-624 | the session moves as `PacketReply`, and the buffers as `Decode` says |
| Driver.Lidar.RejectPacket | lidar.c:562-578 | a failed packet moves the session as `PacketReply` |
| Driver.Lidar.AcceptPacket | lidar.c:581-624 | a good packet moves the session and the buffers as `Decode` says |
| Driver.Lidar.StoreSample | lidar.c:594-619 | the acquisition buffer becomes `Apply` of the slot write; an out-of-range angle adds 20 |
| IgnoreMask.Next | lidar.c:316 | the next bucket is (c+1) mod 360 |
| IgnoreMask.Prev | lidar.c:317 | the previous bucket is (c-1) mod 360 |
| IgnoreMask.MarkStep | lidar.c:311-321 | processing one sample adds exactly its bucket and both neighbours when it is close |
| IgnoreMask.MarkSample | lidar.c:309-322 | one inner-loop pass marks what `MarkStep` says |
| IgnoreMask.Generate | lidar.c:301-325 | every mask entry ends 1 when its bucket or a neighbour holds a close return, and 0 otherwise |
| IgnoreMask.IgnoredIff | lidar.c:301-325 | an entry is ignored exactly when some sample (i, o) has bit 15 clear, a distance below the front (i<12 or i≥78) or side threshold, and bucket 4i+o equal to it or a neighbour |
| IgnoreMask.IgnoredHasWitness | lidar.c:306-321 | an ignored entry has a close sample at or next to it |
| IgnoreMask.WitnessIgnored | lidar.c:306-321 | a close sample makes its bucket and both neighbours ignored |
| IgnoreMask.SingleReturn | lidar.c:301-325 | a revolution with one close return masks exactly that bucket and its two neighbours |
| IgnoreMask.IgnoreLen | lidar.c:107-180 | each chassis curve has 32 positive 14-bit entries, is mirror-symmetric about direction 0, and each odd entry is the rounded-down mean of its neighbours |
| IgnoreMask.CurveShapeOf | lidar.c:107-180 | both literal curves have that shape |

## Left out

- Register-level DMA/USART code is not modelled: `lidar_reset_*`, `lidar_is_complete`, `lidar_is_half`, and the register writes of `lidar_send_cmd`, `lidar_start_acq` and `init_lidar`. The first two sends are logged as transport requests; `init_lidar` only sets the state to `Off`.
- The `DMA2_Stream2->CR` test that picks the half of the receive double buffer (lidar.c:560) is not modelled. The packet bytes are an input.
- The `LIDAR_ENA`/`LIDAR_DIS` power pins are not modelled. They become the `powered` flag.
- The legacy Neato code is out of scope. This covers the first `lidar_fsm` (lidar.c:210-299), `reset_livelidar_images` and `lidar_mark_invalid`. It is superseded and depends on correction routines whose bodies are not shown.
- `sin_lut`, `SIN_LUT_SHIFT`, `ANG_1PER16_DEG`, `LIDAR_IGNORE_LEN` and `LIDAR_IGNORE_LEN_FRONT` are not defined in lidar.c. They are parameters. No trigonometric accuracy is claimed.
- The declarations of `lidar_scan_t`, `S_LIDAR_RECONF` and `COPY_POS` are not in lidar.c. The model infers `lidar_scan_t` (class `Driver.Scan`) from its uses at lidar.c:585-590, 607 and 617-619: 720 slots of valid/x/y, plus `pos_at_start` and `pos_at_end`. It takes `COPY_POS` to copy the whole pose (x, y and heading). `Reconf` is a state of its own.
- `acq_lidar_scan` and `prev_lidar_scan` are never initialised in lidar.c. `Driver.Lidar.constructor` starts them on `lidar_scans[0]` and `lidar_scans[1]`.
- Tick-versus-interrupt preemption is not modelled. Each entry point runs to completion on one object.
- Driver.Lidar.Tick: `powerwait_cnt` and `wait_ready_poll_cnt` are `int` in C (lidar.c:394, 398). `chk_err_cnt` is not declared in lidar.c. It is modelled as the session field `penalty`, starting at 0 and read as an `int`. The 32-bit overflow of these counters is not modelled. The counts stay far below it in the bring-up and fault-burst runs. They do not in the lemmas that hold for any number of events, listed below.
- Protocol.NoRepollWithoutReply: holds for every number of ticks on unbounded integers. In C `wait_ready_poll_cnt` is an `int`, so after about 2^31 further ticks (about 24.8 days at 1 kHz) it passes the most negative `int`. Signed overflow is undefined behaviour in C. Assuming wrap-around, it then counts down from the largest `int` to zero, and the query is sent again after about 2^32 ticks in all (about 49.7 days). The lemma is the behaviour up to that horizon.
- Protocol.ValidPacketsNeverTrip: out-of-range packets may raise `chk_err_cnt` without limit in the model. `chk_err_cnt` is not declared in lidar.c. Read as an `int`, it would wrap after about 10^8 such packets, and that wrap is not modelled.
- Packet.PointX, Packet.PointY: the sum `cur_pos.x + …` and `cur_pos.y + …` is wrapped to 32 bits with two's-complement wrap-around. This assumes that `cur_pos.x`, `cur_pos.y` and the `x`/`y` fields of `lidar_scan_t` are 32-bit signed integers that wrap. They are declared outside lidar.c.
- Packet.Decode: `degper16 * ANG_1PER16_DEG` is taken modulo 2^32 together with the addition. This matches the 32-bit result only if the signed multiplication wraps.
- settings.c (flash storage), motcons.h and uart.h hold no logic of this component and are not modelled.
- Consumers of the finished scan and of the ignore mask live outside lidar.c. They are not modelled.

## Findings

| source | as written | input that shows it | evidently intended | confidence | as-written member | corrected member |
|---|---|---|---|---|---|---|
| lidar.c:437-556 | `lidar_rxbuf` is `uint8_t[2][16]` (lidar.c:345). `lidar_rxbuf[k] == 'M'` therefore compares the address of row k with a character. | Any reply in any configuration state. Rows are 16 bytes apart, but 'Z'-'M' = 13, 'S'-'M' = 6, 'R'-'L' = 6 and 'S'-'D' = 15, so no comparison chain can hold. | Compare bytes `lidar_rxbuf[0][k]` of the reply. | not executed | Protocol.AsWrittenNeverConfigures | Protocol.BringUp |

Further behaviours that follow from the code as written and are proved rather than corrected:

- `Reconf` is never left by a tick or a reply (`Protocol.InertStaysPut`). Only `lidar_on` or `lidar_off` moves it.
- Packets with out-of-range angles add penalty but never trip `Error` (`Protocol.ValidPacketsNeverTrip`).
- A lost poll reply is not retried (`Protocol.NoRepollWithoutReply`). In C, assuming wrap-around of the `int` countdown, it would be retried only after about 2^32 ticks, about 49.7 days at 1 kHz.
- `lidar_off` does not reset the power-settle counter (`Protocol.OffSpec`).

=== FILE: bytes.dfy ===
/** Octets as they travel over the sensor's serial line, and the ASCII frames
    of the command/reply protocol. */
module Bytes {

  /** One `uint8_t`. */
  newtype byte = x: int | 0 <= x < 256

  const LF: byte := 10
  const ZeroDigit: byte := 48

  /** The bytes of an ASCII string literal. */
  function Ascii(s: string): (r: seq<byte>)
    requires forall i | 0 <= i < |s| :: s[i] < 128 as char
    ensures |r| == |s|
    ensures forall i | 0 <= i < |s| :: r[i] as int == s[i] as int
  {
    seq(|s|, i requires 0 <= i < |s| => s[i] as int as byte)
  }

  /** The byte `'0' + d` the driver writes for a one-digit argument. */
  function Digit(d: int): (r: byte)
    requires 0 <= d <= 9
    ensures r as int - ZeroDigit as int == d
  {
    (ZeroDigit as int + d) as byte
  }

  /** True when `buf` starts with exactly the bytes of `expected`: the chain of
      byte-by-byte `==` comparisons the driver makes against a reply. */
  predicate StartsWith(buf: seq<byte>, expected: seq<byte>)
  {
    |expected| <= |buf| && buf[..|expected|] == expected
  }

  /** A reply fails to match exactly when one compared byte differs. */
  lemma StartsWithIff(buf: seq<byte>, expected: seq<byte>)
    requires |expected| <= |buf|
    ensures StartsWith(buf, expected) <==> forall k | 0 <= k < |expected| :: buf[k] == expected[k]
  {
    if forall k | 0 <= k < |expected| :: buf[k] == expected[k] {
      assert buf[..|expected|] == expected;
    }
  }

  /** `buf` padded with zero bytes up to `n` bytes, as a fixed receive buffer
      holds a shorter reply. */
  function Padded(buf: seq<byte>, n: nat): (r: seq<byte>)
    requires |buf| <= n
    ensures |r| == n && StartsWith(r, buf)
    ensures forall k | |buf| <= k < n :: r[k] == 0
  {
    buf + seq(n - |buf|, _ => 0)
  }
}

=== FILE: driver.dfy ===
/** The driver object of lidar.c: the session variables, the transmit buffer
    and the double-buffered scan store, updated in place by the entry points
    `init_lidar`, `lidar_on`, `lidar_off`, `lidar_fsm` and
    `lidar_rx_done_inthandler`. Each entry point is proved to move the
    session exactly as the corresponding function of `Protocol` does; the
    RUNNING arm is also proved against `Packet.Decode` for the scan store. */
module Driver {
  import opened Bytes
  import opened Packet
  import opened Protocol

  /** One `lidar_scan_t`: 720 half-degree slots in world coordinates and the
      robot pose when the revolution started and ended. */
  class Scan {
    const samples: array<Sample>
    var posAtStart: Pose
    var posAtEnd: Pose

    /** The zero-initialised static buffer. */
    constructor ()
      ensures fresh(samples) && samples.Length == SlotCount
      ensures forall k | 0 <= k < SlotCount :: samples[k] == Sample(false, 0, 0)
      ensures posAtStart == Pose(0, 0, 0) && posAtEnd == Pose(0, 0, 0)
    {
      samples := new Sample[SlotCount](_ => Sample(false, 0, 0));
      posAtStart := Pose(0, 0, 0);
      posAtEnd := Pose(0, 0, 0);
    }
  }

  /** `lidar_txbuf` holds 16 bytes. */
  const TxBufLen: nat := 16

  class Lidar {
    var state: State
    var fps: int
    var smp: int
    var powered: bool
    var powerwaitCnt: int
    var pollCnt: int
    var penalty: int
    var errorFlags: byte
    /** The transport requests made so far (`lidar_send_cmd`,
        `lidar_start_acq`). */
    var io: seq<TransportOp>
    const txbuf: array<byte>
    /** `lidar_scans[0]` and `lidar_scans[1]`. */
    const scanA: Scan
    const scanB: Scan
    /** `acq_lidar_scan`, the buffer being filled, and `prev_lidar_scan`, the
        last finished one. */
    var acq: Scan
    var prev: Scan

    function Snapshot(): Session
      reads this
    {
      Session(state, fps, smp, powered, powerwaitCnt, pollCnt, penalty, errorFlags, io)
    }

    /** The session invariant, two distinct physical scan buffers of 720
        slots, and the two roles always naming one each. */
    ghost predicate Valid()
      reads this
    {
      Inv(Snapshot()) &&
      txbuf.Length == TxBufLen &&
      scanA != scanB && scanA.samples != scanB.samples &&
      scanA.samples.Length == SlotCount && scanB.samples.Length == SlotCount &&
      ((acq == scanA && prev == scanB) || (acq == scanB && prev == scanA))
    }

    /** After a step that began with the transport log `before` and the
        transmit buffer `buf`: when the step sent a command, the transmit
        buffer begins with the bytes sent and the bytes after them are those
        of `buf`. */
    ghost predicate SentFromTxbuf(before: seq<TransportOp>, buf: seq<byte>)
      reads this, txbuf
    {
      |io| == |before| + 1 && io[|before|].SendCmd? ==>
        |io[|before|].tx| <= txbuf.Length && |buf| == txbuf.Length &&
        txbuf[..|io[|before|].tx|] == io[|before|].tx &&
        txbuf[|io[|before|].tx|..] == buf[|io[|before|].tx|..]
    }

    /** The step sent no command. */
    ghost predicate SentNothing(before: seq<TransportOp>)
      reads this
    {
      !(|io| == |before| + 1 && io[|before|].SendCmd?)
    }

    /** The statically initialised driver. Which buffer starts as the
        acquisition buffer is not set in lidar.c; here it is `lidar_scans[0]`. */
    constructor ()
      ensures Valid() && Snapshot() == Initial
      ensures fresh(txbuf) && fresh(scanA) && fresh(scanB) && fresh(scanA.samples) && fresh(scanB.samples)
      ensures acq == scanA && prev == scanB
      ensures forall k | 0 <= k < TxBufLen :: txbuf[k] == 0
      ensures forall k | 0 <= k < SlotCount ::
        scanA.samples[k] == Sample(false, 0, 0) && scanB.samples[k] == Sample(false, 0, 0)
      ensures scanA.posAtStart == scanA.posAtEnd == scanB.posAtStart == scanB.posAtEnd == Pose(0, 0, 0)
    {
      state, fps, smp, powered := Uninit, 2, 2, false;
      powerwaitCnt, pollCnt, penalty, errorFlags, io := 0, 0, 0, 0, [];
      txbuf := new byte[TxBufLen](_ => 0);
      var a := new Scan();
      var b := new Scan();
      scanA, scanB := a, b;
      acq, prev := a, b;
    }

    /** `init_lidar` (lidar.c:676-698), without the register set-up: only the
        state changes, to `Off`. */
    method Init()
      requires Valid()
      modifies this
      ensures Valid() && Snapshot() == old(Snapshot()).(state := Off)
      ensures acq == old(acq) && prev == old(prev)
    {
      state := Off;
    }

    /** `lidar_send_cmd` (lidar.c:638-656): transmit the first `txLen` bytes of
        the transmit buffer and expect a reply of `rxLen` bytes. */
    method SendCommand(txLen: nat, rxLen: nat)
      requires Valid() && txLen <= TxBufLen
      modifies this
      ensures Valid() && Snapshot() == old(Snapshot()).(io := old(io) + [SendCmd(txbuf[..txLen], rxLen)])
      ensures acq == old(acq) && prev == old(prev)
    {
      io := io + [SendCmd(txbuf[..txLen], rxLen)];
    }

    /** `lidar_start_acq` (lidar.c:662-673): switch to continuous packet
        reception. */
    method StartAcquisition()
      requires Valid()
      modifies this
      ensures Valid() && Snapshot() == old(Snapshot()).(io := old(io) + [StartAcq])
      ensures acq == old(acq) && prev == old(prev)
    {
      io := io + [StartAcq];
    }

    /** `lidar_on` (lidar.c:375-386). */
    method SwitchOn(newFps: int, newSmp: int)
      requires Valid()
      modifies this
      ensures Valid() && Snapshot() == OnSpec(old(Snapshot()), newFps, newSmp)
      ensures acq == old(acq) && prev == old(prev)
    {
      if newFps < 1 || newFps > 5 || newSmp < 1 || newSmp > 3 {
        return;
      }
      fps := newFps;
      smp := newSmp;
      powered := true;
      if state == Running {
        state := Reconf;
      } else {
        state := WaitPowered;
      }
    }

    /** `lidar_off` (lidar.c:388-392). */
    method SwitchOff()
      requires Valid()
      modifies this
      ensures Valid() && Snapshot() == OffSpec(old(Snapshot()))
      ensures acq == old(acq) && prev == old(prev)
    {
      powered := false;
      state := Off;
    }

    /** `lidar_fsm`, the 1 kHz tick (lidar.c:396-431). */
    method Tick()
      requires Valid()
      modifies this, txbuf
      ensures Valid() && Snapshot() == TickSpec(old(Snapshot()))
      ensures acq == old(acq) && prev == old(prev)
      ensures SentFromTxbuf(old(io), old(txbuf[..]))
      ensures SentNothing(old(io)) ==> unchanged(txbuf)
    {
      match state
      case WaitPowered =>
        powerwaitCnt := powerwaitCnt + 1;
        if powerwaitCnt > PowerSettleTicks {
          powerwaitCnt := 0;
          pollCnt := FirstPollDelay;
          state := PreconfWaitReady;
        }
      case PreconfWaitReady | WaitReady =>
        pollCnt := pollCnt - 1;
        if pollCnt == 0 {
          txbuf[0], txbuf[1], txbuf[2] := 'M' as int as byte, 'Z' as int as byte, LF;
          assert txbuf[..3] == MotorQuery;
          SendCommand(3, 4);
        }
      case _ =>
    }

    /** Places a five-byte set command: two letters, `'0'`, the digit and a
        line feed (lidar.c:445-449, 475-479). */
    method WriteSetCommand(c0: byte, c1: byte, d: int)
      requires Valid() && 1 <= d <= 5
      modifies txbuf
      ensures txbuf[..5] == [c0, c1, ZeroDigit, Digit(d), LF]
      ensures txbuf[5..] == old(txbuf[5..])
    {
      txbuf[0], txbuf[1], txbuf[2], txbuf[3], txbuf[4] := c0, c1, ZeroDigit, Digit(d), LF;
    }

    /** `lidar_rx_done_inthandler` (lidar.c:433-632) on the receive buffer `rx`
        it reads: buffer 0 in the configuration states, the settled half of
        the double buffer while running. The session moves as `RxSpec` says.
        While running, a packet swaps the buffer roles exactly when `Decode`
        reports a sync, stamping the pose at the end of the finished buffer and
        at the start of the new acquisition buffer, and it changes at most
        the one slot of the acquisition buffer that `Decode` names; the
        finished buffer's samples never change. */
    method RxDone(rx: seq<byte>, pos: Pose, trig: Trig)
      requires Valid() && |rx| == RxBufLen && ValidTrig(trig)
      modifies this, txbuf, scanA, scanB, scanA.samples, scanB.samples
      ensures Valid() && Snapshot() == RxSpec(old(Snapshot()), rx)
      ensures old(state) != Running ==>
        acq == old(acq) && prev == old(prev) &&
        unchanged(scanA, scanB, scanA.samples, scanB.samples)
      ensures old(state) == Running ==>
        var o := Decode(rx, old(penalty), pos, trig);
        var fill, done := acq, prev;
        fill == (if o.sync then old(prev) else old(acq)) &&
        done == (if o.sync then old(acq) else old(prev)) &&
        done.samples[..] == old(done.samples[..]) &&
        fill.samples[..] == Apply(o.write, old(fill.samples[..])) &&
        (o.sync ==>
          done.posAtEnd == pos && fill.posAtStart == pos &&
          done.posAtStart == old(done.posAtStart) && fill.posAtEnd == old(fill.posAtEnd)) &&
        (!o.sync ==> unchanged(scanA, scanB))
      ensures SentFromTxbuf(old(io), old(txbuf[..]))
      ensures SentNothing(old(io)) ==> unchanged(txbuf)
    {
      if state == Running {
        RunningPacket(rx, pos, trig);
      } else {
        ConfigArm(rx);
      }
    }

    /** The configuration arms of `lidar_rx_done_inthandler` (lidar.c:437-556)
        on receive buffer 0: compare the reply with the one the state waits
        for, and on a match send the next command. */
    method ConfigArm(rx: seq<byte>)
      requires Valid() && state != Running && |rx| == RxBufLen
      modifies this, txbuf
      ensures Valid() && Snapshot() == ConfigReply(old(Snapshot()), Recognised(old(Snapshot()), rx))
      ensures acq == old(acq) && prev == old(prev)
      ensures SentFromTxbuf(old(io), old(txbuf[..]))
      ensures SentNothing(old(io)) ==> unchanged(txbuf)
    {
      if Polling(state) {
        PollArm(rx);
      } else if AwaitsEcho(state) {
        EchoArm(rx);
      }
    }

    /** The two polling states (lidar.c:437-459, 513-534): a "stabilised"
        reply sends the next command, anything else re-arms the poll. */
    method PollArm(rx: seq<byte>)
      requires Valid() && Polling(state) && |rx| == RxBufLen
      modifies this, txbuf
      ensures Valid() && Snapshot() == ConfigReply(old(Snapshot()), Recognised(old(Snapshot()), rx))
      ensures acq == old(acq) && prev == old(prev)
      ensures SentFromTxbuf(old(io), old(txbuf[..]))
      ensures SentNothing(old(io)) ==> unchanged(txbuf)
    {
      if state == PreconfWaitReady {
        if StartsWith(rx, MotorReady) {
          WriteSetCommand('M' as int as byte, 'S' as int as byte, fps);
          assert txbuf[..5] == SetSpeed(fps);
          SendCommand(5, 9);
          state := Conf1;
        } else {
          pollCnt := RepollDelay;
        }
      } else {
        if StartsWith(rx, MotorReady) {
          txbuf[0], txbuf[1], txbuf[2] := 'D' as int as byte, 'S' as int as byte, LF;
          assert txbuf[..3] == StartCmd;
          SendCommand(3, 6);
          state := WaitStartAck;
        } else {
          pollCnt := RepollDelay;
        }
      }
    }

    /** The three echo states (lidar.c:461-511, 536-556): the expected echo
        advances the handshake, anything else is an error. */
    method EchoArm(rx: seq<byte>)
      requires Valid() && AwaitsEcho(state) && |rx| == RxBufLen
      modifies this, txbuf
      ensures Valid() && Snapshot() == ConfigReply(old(Snapshot()), Recognised(old(Snapshot()), rx))
      ensures acq == old(acq) && prev == old(prev)
      ensures SentFromTxbuf(old(io), old(txbuf[..]))
      ensures SentNothing(old(io)) ==> unchanged(txbuf)
    {
      match state
      case Conf1 =>
        if StartsWith(rx, SetSpeed(fps) + OkStatus) {
          SendRate();
        } else {
          state := Error;
        }
      case Conf2 =>
        if StartsWith(rx, SetRate(smp) + OkStatus) {
          pollCnt := FirstPollDelay;
          state := WaitReady;
        } else {
          state := Error;
        }
      case WaitStartAck =>
        if StartsWith(rx, StartAck) {
          StartAcquisition();
          state := Running;
          penalty := 0;
        }  else {
          state := Error;
        }
    }

    /** The matched speed echo (lidar.c:473-481): place `LR0<smp>\n` in the
        transmit buffer, send it expecting a 9-byte echo, and move to `Conf2`. */
    method SendRate()
      requires Valid() && state == Conf1
      modifies this, txbuf
      ensures Valid()
      ensures Snapshot() == old(Snapshot()).(io := old(io) + [SendCmd(SetRate(old(smp)), 9)], state := Conf2)
      ensures acq == old(acq) && prev == old(prev)
      ensures SentFromTxbuf(old(io), old(txbuf[..]))
    {
      WriteSetCommand('L' as int as byte, 'R' as int as byte, smp);
      assert txbuf[..5] == SetRate(smp);
      SendCommand(5, 9);
      state := Conf2;
    }

    /** The sync step of the RUNNING arm (lidar.c:583-591): stamp the pose at
        the end of the acquisition buffer, swap the two roles, and stamp the
        pose at the start of the new acquisition buffer. */
    method BeginScan(pos: Pose)
      requires Valid()
      modifies this, acq, prev
      ensures Valid() && Snapshot() == old(Snapshot())
      ensures acq == old(prev) && prev == old(acq)
      ensures prev.posAtEnd == pos && acq.posAtStart == pos
      ensures prev.posAtStart == old(acq.posAtStart) && acq.posAtEnd == old(prev.posAtEnd)
    {
      acq.posAtEnd := pos;
      acq, prev := prev, acq;
      acq.posAtStart := pos;
    }

    /** Writes slot `k` of the acquisition buffer (lidar.c:605-620). */
    method WriteSlot(k: nat, v: Sample)
      requires Valid() && k < SlotCount
      modifies acq.samples
      ensures acq.samples[..] == old(acq.samples[..])[k := v]
    {
      acq.samples[k] := v;
    }

    /** The RUNNING arm (lidar.c:558-624) on one 7-byte packet. */
    method RunningPacket(rx: seq<byte>, pos: Pose, trig: Trig)
      requires Valid() && state == Running && |rx| == RxBufLen && ValidTrig(trig)
      modifies this, scanA, scanB, scanA.samples, scanB.samples
      ensures Valid() && Snapshot() == PacketReply(old(Snapshot()), rx)
      ensures var o := Decode(rx, old(penalty), pos, trig);
        var fill, done := acq, prev;
        fill == (if o.sync then old(prev) else old(acq)) &&
        done == (if o.sync then old(acq) else old(prev)) &&
        done.samples[..] == old(done.samples[..]) &&
        fill.samples[..] == Apply(o.write, old(fill.samples[..])) &&
        (o.sync ==>
          done.posAtEnd == pos && fill.posAtStart == pos &&
          done.posAtStart == old(done.posAtStart) && fill.posAtEnd == old(fill.posAtEnd)) &&
        (!o.sync ==> unchanged(scanA, scanB))
    {
      if Checksum(rx) != rx[6] as int || ErrorBits(rx[0]) {
        RejectPacket(rx);
      } else {
        AcceptPacket(rx, pos, trig);
      }
    }

    /** A packet that fails the checksum or carries error bits
        (lidar.c:562-582): charge the fault weight, and go to ERROR recording
        the status byte once the penalty exceeds the limit. */
    method RejectPacket(rx: seq<byte>)
      requires Valid() && state == Running && |rx| == RxBufLen && !PacketOk(rx)
      modifies this
      ensures Valid() && Snapshot() == PacketReply(old(Snapshot()), rx)
      ensures acq == old(acq) && prev == old(prev)
    {
      penalty := penalty + FaultWeight;
      if penalty > FaultLimit {
        state := Error;
        errorFlags := rx[0];
      }
    }

    /** A packet that passes validation (lidar.c:581-624): decay the penalty,
        swap the buffers on a sync, then write the slot. */
    method AcceptPacket(rx: seq<byte>, pos: Pose, trig: Trig)
      requires Valid() && state == Running && |rx| == RxBufLen && ValidTrig(trig) && PacketOk(rx)
      modifies this, scanA, scanB, scanA.samples, scanB.samples
      ensures Valid() && Snapshot() == PacketReply(old(Snapshot()), rx)
      ensures var o := Decode(rx, old(penalty), pos, trig);
        var fill, done := acq, prev;
        fill == (if o.sync then old(prev) else old(acq)) &&
        done == (if o.sync then old(acq) else old(prev)) &&
        done.samples[..] == old(done.samples[..]) &&
        fill.samples[..] == Apply(o.write, old(fill.samples[..])) &&
        (o.sync ==>
          done.posAtEnd == pos && fill.posAtStart == pos &&
          done.posAtStart == old(done.posAtStart) && fill.posAtEnd == old(fill.posAtEnd)) &&
        (!o.sync ==> unchanged(scanA, scanB))
    {
      if penalty != 0 {
        penalty := penalty - 1;
      }
      if rx[0] != 0 {
        BeginScan(pos);
      }
      StoreSample(rx, pos, trig);
    }

    /** The slot write of a good packet (lidar.c:594-620): an angle past the
        last slot is charged the fault weight without a limit test, a distance
        under 2 cm marks the slot as no return, and anything else stores the
        world coordinates of the return. */
    method StoreSample(rx: seq<byte>, pos: Pose, trig: Trig)
      requires Valid() && |rx| == RxBufLen && ValidTrig(trig) && PacketOk(rx)
      modifies this, acq.samples
      ensures Valid() && acq == old(acq) && prev == old(prev)
      ensures Snapshot() == old(Snapshot()).(penalty := if Slot(rx) < SlotCount then old(penalty) else old(penalty) + FaultWeight)
      ensures acq.samples[..] == Apply(Decode(rx, old(penalty), pos, trig).write, old(acq.samples[..]))
    {
      var degper16 := Le16(rx[1], rx[2]);
      var len := Le16(rx[3], rx[4]);
      var degper2 := degper16 / 8;
      assert degper2 == Slot(rx) && len == LengthCm(rx);
      if degper2 > SlotCount - 1 {
        penalty := penalty + FaultWeight;
        return;
      }
      if len < 2 {
        WriteSlot(degper2, acq.samples[degper2].(valid := false));
        return;
      }

      var lenMm := len * 10;
      var ang32 := U32(U32(pos.ang) + degper16 * trig.angPer16);
      assert ang32 == Heading(rx, pos, trig);
      var yIdx := Shr(ang32, trig.shift);
      var xIdx := Shr(U32(QuarterTurn - ang32), trig.shift);
      WriteSlot(degper2, Sample(true,
        I32(pos.x + FixMul(trig.sinLut(xIdx), lenMm)),
        I32(pos.y + FixMul(trig.sinLut(yIdx), lenMm))));
    }
  }
}

=== FILE: ignore_mask.dfy ===
/** The self-occlusion filter of lidar.c: the per-bucket ignore mask built
    from one reference revolution (`generate_lidar_ignore`) and the
    directional minimum-range curve (`lidar_ignore_len`). */
module IgnoreMask {
  import opened Bytes

  /** `lidar_ignore` has one entry per sample of a revolution. */
  const MaskLen: nat := 360
  /** `lidar_full_rev`: 90 packets of 4 samples each. */
  const RevPackets: nat := 90
  const PerPacket: nat := 4
  /** Bit 15 of `flags_distance` flags a sample without a usable return. */
  const NoReturnBit: bv16 := 0x8000
  /** The low 14 bits of `flags_distance` are the distance. */
  const DistanceBits: bv16 := 0x3fff

  /** A reference revolution: `rev[i][o]` is `flags_distance` of sample `o`
      of packet `i`. */
  predicate WellShaped(rev: seq<seq<bv16>>)
  {
    |rev| == RevPackets && forall i | 0 <= i < |rev| :: |rev[i]| == PerPacket
  }

  /** The range under which a return counts as the robot's own body: the
      front threshold for the first 12 and the last 12 packets, the side
      threshold elsewhere. */
  function Threshold(i: int, side: int, front: int): int
  {
    if i < 12 || i >= 78 then front else side
  }

  /** Sample `o` of packet `i` is a real return closer than the threshold. */
  predicate Near(rev: seq<seq<bv16>>, side: int, front: int, i: int, o: int)
    requires WellShaped(rev) && 0 <= i < RevPackets && 0 <= o < PerPacket
  {
    rev[i][o] & NoReturnBit == 0 && (rev[i][o] & DistanceBits) as int < Threshold(i, side, front)
  }

  /** The same test on the flat sample index `c == 4 * i + o`. */
  predicate Close(rev: seq<seq<bv16>>, side: int, front: int, c: int)
    requires WellShaped(rev) && 0 <= c < MaskLen
  {
    Near(rev, side, front, c / PerPacket, c % PerPacket)
  }

  /** The neighbour after `c`, wrapping from 359 to 0. */
  function Next(c: int): (r: int)
    requires 0 <= c < MaskLen
    ensures 0 <= r < MaskLen && r != c
    ensures r == (c + 1) % MaskLen
  {
    if c + 1 > MaskLen - 1 then 0 else c + 1
  }

  /** The neighbour before `c`, wrapping from 0 to 359. */
  function Prev(c: int): (r: int)
    requires 0 <= c < MaskLen
    ensures 0 <= r < MaskLen && r != c
    ensures r == (c - 1) % MaskLen
  {
    if c - 1 < 0 then MaskLen - 1 else c - 1
  }

  /** `k` is the bucket `c` or one of its two neighbours. */
  predicate Adjacent(c: int, k: int)
    requires 0 <= c < MaskLen
  {
    k == c || k == Next(c) || k == Prev(c)
  }

  /** The buckets a mask entry depends on: `k` is ignored when it, or a
      neighbour, holds a close return. */
  predicate Ignored(rev: seq<seq<bv16>>, side: int, front: int, k: int)
    requires WellShaped(rev) && 0 <= k < MaskLen
  {
    Close(rev, side, front, k) || Close(rev, side, front, Prev(k)) || Close(rev, side, front, Next(k))
  }

  /** The part of `Ignored` contributed by the first `n` samples. */
  predicate MarkedBefore(rev: seq<seq<bv16>>, side: int, front: int, n: int, k: int)
    requires WellShaped(rev) && 0 <= k < MaskLen
  {
    (k < n && Close(rev, side, front, k)) ||
    (Prev(k) < n && Close(rev, side, front, Prev(k))) ||
    (Next(k) < n && Close(rev, side, front, Next(k)))
  }

  /** Processing sample `c` adds exactly the buckets adjacent to it, and only
      when it is close. */
  lemma MarkStep(rev: seq<seq<bv16>>, side: int, front: int, c: int, k: int)
    requires WellShaped(rev) && 0 <= c < MaskLen && 0 <= k < MaskLen
    ensures MarkedBefore(rev, side, front, c + 1, k) <==>
      MarkedBefore(rev, side, front, c, k) || (Close(rev, side, front, c) && Adjacent(c, k))
  {
    assert Prev(k) == c <==> k == Next(c);
    assert Next(k) == c <==> k == Prev(c);
  }

  /** `generate_lidar_ignore` (lidar.c:301-325): clear the mask, then for
      every close return mark its bucket and both neighbours. Every entry
      ends 1 exactly when `Ignored` holds and 0 otherwise. */
  method Generate(mask: array<byte>, rev: seq<seq<bv16>>, side: int, front: int)
    requires mask.Length == MaskLen && WellShaped(rev)
    modifies mask
    ensures forall k | 0 <= k < MaskLen :: mask[k] == if Ignored(rev, side, front, k) then 1 else 0
  {
    for k := 0 to MaskLen
      invariant forall j | 0 <= j < k :: mask[j] == 0
    {
      mask[k] := 0;
    }

    for i := 0 to RevPackets
      invariant forall k | 0 <= k < MaskLen ::
        mask[k] == if MarkedBefore(rev, side, front, PerPacket * i, k) then 1 else 0
    {
      for o := 0 to PerPacket
        invariant forall k | 0 <= k < MaskLen ::
          mask[k] == if MarkedBefore(rev, side, front, PerPacket * i + o, k) then 1 else 0
      {
        MarkSample(mask, rev, side, front, i, o);
      }
    }
  }

  /** One pass of the inner loop of `generate_lidar_ignore` (lidar.c:309-322):
      if sample `o` of packet `i` is a close return, set its bucket and both
      neighbours, wrapping at the ends of the mask. */
  method MarkSample(mask: array<byte>, rev: seq<seq<bv16>>, side: int, front: int, i: int, o: int)
    requires mask.Length == MaskLen && WellShaped(rev)
    requires 0 <= i < RevPackets && 0 <= o < PerPacket
    requires forall k | 0 <= k < MaskLen ::
      mask[k] == if MarkedBefore(rev, side, front, PerPacket * i + o, k) then 1 else 0
    modifies mask
    ensures forall k | 0 <= k < MaskLen ::
      mask[k] == if MarkedBefore(rev, side, front, PerPacket * i + o + 1, k) then 1 else 0
  {
    var cur := i * 4 + o;
    assert cur / PerPacket == i && cur % PerPacket == o;
    ghost var near := Close(rev, side, front, cur);
    if rev[i][o] & NoReturnBit == 0 {
      if (rev[i][o] & DistanceBits) as int < Threshold(i, side, front) {
        var next := cur + 1;
        if next > MaskLen - 1 {
          next := 0;
        }
        var prev := cur - 1;
        if prev < 0 {
          prev := MaskLen - 1;
        }
        mask[prev] := 1;
        mask[cur] := 1;
        mask[next] := 1;
      }
    }
    assert forall k | 0 <= k < MaskLen ::
      mask[k] == if MarkedBefore(rev, side, front, cur, k) || (near && Adjacent(cur, k)) then 1 else 0;
    forall k | 0 <= k < MaskLen
      ensures mask[k] == if MarkedBefore(rev, side, front, cur + 1, k) then 1 else 0
    {
      MarkStep(rev, side, front, cur, k);
    }
  }

  /** The mask as stated sample by sample: bucket `k` is ignored exactly when
      some sample `(i, o)` of the revolution is a close return and `k` is its
      bucket `4 * i + o` or a neighbour of it. */
  lemma IgnoredIff(rev: seq<seq<bv16>>, side: int, front: int, k: int)
    requires WellShaped(rev) && 0 <= k < MaskLen
    ensures Ignored(rev, side, front, k) <==>
      exists i, o | 0 <= i < RevPackets && 0 <= o < PerPacket ::
        Near(rev, side, front, i, o) && Adjacent(PerPacket * i + o, k)
  {
    if Ignored(rev, side, front, k) {
      IgnoredHasWitness(rev, side, front, k);
    }
    if exists i, o | 0 <= i < RevPackets && 0 <= o < PerPacket ::
         Near(rev, side, front, i, o) && Adjacent(PerPacket * i + o, k) {
      var i, o :| 0 <= i < RevPackets && 0 <= o < PerPacket &&
        Near(rev, side, front, i, o) && Adjacent(PerPacket * i + o, k);
      WitnessIgnored(rev, side, front, i, o, k);
    }
  }

  lemma IgnoredHasWitness(rev: seq<seq<bv16>>, side: int, front: int, k: int)
    requires WellShaped(rev) && 0 <= k < MaskLen && Ignored(rev, side, front, k)
    ensures exists i, o | 0 <= i < RevPackets && 0 <= o < PerPacket ::
      Near(rev, side, front, i, o) && Adjacent(PerPacket * i + o, k)
  {
    var c := if Close(rev, side, front, k) then k
      else if Close(rev, side, front, Prev(k)) then Prev(k) else Next(k);
    var i, o := c / PerPacket, c % PerPacket;
    assert PerPacket * i + o == c;
    assert Near(rev, side, front, i, o) && Adjacent(PerPacket * i + o, k);
  }

  lemma WitnessIgnored(rev: seq<seq<bv16>>, side: int, front: int, i: int, o: int, k: int)
    requires WellShaped(rev) && 0 <= k < MaskLen
    requires 0 <= i < RevPackets && 0 <= o < PerPacket
    requires Near(rev, side, front, i, o) && Adjacent(PerPacket * i + o, k)
    ensures Ignored(rev, side, front, k)
  {
    var c := PerPacket * i + o;
    assert c / PerPacket == i && c % PerPacket == o;
    assert Close(rev, side, front, c);
    assert Prev(k) == c <==> k == Next(c);
    assert Next(k) == c <==> k == Prev(c);
  }

  /** A revolution with a single close return at bucket `c` masks exactly
      that bucket and its two neighbours. */
  lemma SingleReturn(rev: seq<seq<bv16>>, side: int, front: int, c: int, k: int)
    requires WellShaped(rev) && 0 <= c < MaskLen && 0 <= k < MaskLen
    requires Close(rev, side, front, c)
    requires forall d | 0 <= d < MaskLen && d != c :: !Close(rev, side, front, d)
    ensures Ignored(rev, side, front, k) <==> Adjacent(c, k)
  {
    assert Prev(k) == c <==> k == Next(c);
    assert Next(k) == c <==> k == Prev(c);
  }

  // ---------------------------------------------------------------------
  // The directional minimum-range curve

  /** The chassis the firmware is built for. */
  datatype Chassis = Rn1p | Pulu1

  /** Entry `2 * j + 1` of a 32-entry curve lies halfway, rounded down,
      between its two neighbours, wrapping from entry 31 to entry 0. */
  predicate MeanAt(t: seq<int>, j: int)
    requires |t| == 32 && 0 <= j < 16
  {
    t[2 * j + 1] == (t[2 * j] + t[if j == 15 then 0 else 2 * j + 2]) / 2
  }

  /** Direction `k` and direction `32 - k` have the same range. */
  predicate MirrorAt(t: seq<int>, k: int)
    requires |t| == 32 && 0 < k < 32
  {
    t[k] == t[32 - k]
  }

  /** The shape of a minimum-range curve: 32 directions, every range a
      positive 14-bit distance, mirror symmetric about direction 0, each odd
      entry the rounded-down mean of its two neighbours. */
  predicate CurveShape(t: seq<int>)
  {
    |t| == 32 &&
    (forall k | 0 <= k < 32 :: 0 < t[k] <= DistanceBits as int) &&
    (forall k | 0 < k < 32 :: MirrorAt(t, k)) &&
    (forall j | 0 <= j < 16 :: MeanAt(t, j))
  }

  /** `lidar_ignore_len` (lidar.c:107-180), one curve per chassis. */
  function IgnoreLen(chassis: Chassis): (t: seq<int>)
    ensures CurveShape(t)
  {
    match chassis
    case Rn1p =>
      CurveShapeOf(Rn1pCurve);
      Rn1pCurve
    case Pulu1 =>
      CurveShapeOf(Pulu1Curve);
      Pulu1Curve
  }

  /** The curve built for the RN1P4/5/6 chassis (lidar.c:108-142). */
  const Rn1pCurve: seq<int> :=
    [100, (100+170)/2, 170, (170+200)/2, 200, (200+220)/2, 220, (220+200)/2,
     200, (200+250)/2, 250, (250+300)/2, 300, (300+390)/2, 390, (390+350)/2,
     350, (350+390)/2, 390, (390+300)/2, 300, (300+250)/2, 250, (250+200)/2,
     200, (200+220)/2, 220, (220+200)/2, 200, (200+170)/2, 170, (170+100)/2]

  /** The curve built for the PULU1 chassis (lidar.c:145-179). */
  const Pulu1Curve: seq<int> :=
    [30, (30+55)/2, 55, (55+70)/2, 70, (70+90)/2, 90, (90+70)/2,
     70, (70+90)/2, 90, (90+120)/2, 120, (120+210)/2, 210, (210+190)/2,
     190, (190+210)/2, 210, (210+120)/2, 120, (120+90)/2, 90, (90+70)/2,
     70, (70+90)/2, 90, (90+70)/2, 70, (70+55)/2, 55, (55+30)/2]

  /** Both literal curves have the shape, checked one property at a time. */
  lemma CurveShapeOf(t: seq<int>)
    requires t == Rn1pCurve || t == Pulu1Curve
    ensures CurveShape(t)
  {
    if t == Rn1pCurve {
      Rn1pRanges();
      Rn1pMirror();
      Rn1pMeans();
    } else {
      Pulu1Ranges();
      Pulu1Mirror();
      Pulu1Means();
    }
  }

  lemma Rn1pRanges()
    ensures |Rn1pCurve| == 32 && forall k | 0 <= k < 32 :: 0 < Rn1pCurve[k] <= DistanceBits as int
  {
  }

  lemma Rn1pMirror()
    ensures |Rn1pCurve| == 32 && forall k | 0 < k < 32 :: MirrorAt(Rn1pCurve, k)
  {
  }

  lemma Rn1pMeans()
    ensures |Rn1pCurve| == 32 && forall j | 0 <= j < 16 :: MeanAt(Rn1pCurve, j)
  {
  }

  lemma Pulu1Ranges()
    ensures |Pulu1Curve| == 32 && forall k | 0 <= k < 32 :: 0 < Pulu1Curve[k] <= DistanceBits as int
  {
  }

  lemma Pulu1Mirror()
    ensures |Pulu1Curve| == 32 && forall k | 0 < k < 32 :: MirrorAt(Pulu1Curve, k)
  {
  }

  lemma Pulu1Means()
    ensures |Pulu1Curve| == 32 && forall j | 0 <= j < 16 :: MeanAt(Pulu1Curve, j)
  {
  }
}

=== FILE: packet.dfy ===
/** The 7-byte streaming packet of the Scanse Sweep and what the receive
    interrupt does with one packet while the session is RUNNING: checksum and
    error-flag test, the decaying fault penalty, the half-degree slot index and
    the fixed-point polar to Cartesian conversion (lidar.c:558-624). */
module Packet {
  import opened Bytes

  const PacketLen: nat := 7
  /** One slot per half degree of rotation. */
  const SlotCount: nat := 720
  /** A full turn in the sensor's 1/16 degree angle units. */
  const FullTurn16: nat := 5760
  /** Penalty added for each faulty packet, and the level above which the
      session gives up. */
  const FaultWeight: int := 20
  const FaultLimit: int := 100

  const Two31: int := 0x8000_0000
  const Two32: int := 0x1_0000_0000
  /** 2^30 in the 32-bit angle unit: a quarter turn. */
  const QuarterTurn: int := 0x4000_0000

  /** A snapshot of the robot pose (`cur_pos`): position in millimetres and
      heading in the 32-bit full-turn angle unit. */
  datatype Pose = Pose(x: int, y: int, ang: int)

  /** The sine table and its scale constants, none of which appear in lidar.c:
      `sinLut` stands for `sin_lut`, `shift` for `SIN_LUT_SHIFT` and
      `angPer16` for `ANG_1PER16_DEG`. */
  datatype Trig = Trig(sinLut: int -> int, shift: nat, angPer16: int)

  /** The table index `angle >> shift` fits an `int32_t` only when the shift
      is at least one. */
  predicate ValidTrig(t: Trig)
  {
    1 <= t.shift <= 31
  }

  /** One slot of a scan buffer. */
  datatype Sample = Sample(valid: bool, x: int, y: int)

  // ---------------------------------------------------------------------
  // Validation

  /** Sum of the six payload bytes, modulo 255 (lidar.c:562-563). */
  function Checksum(p: seq<byte>): (c: int)
    requires |p| >= 6
    ensures 0 <= c < 255
  {
    (p[0] as int + p[1] as int + p[2] as int + p[3] as int + p[4] as int + p[5] as int) % 255
  }

  /** Any of the upper seven bits of the status byte set (lidar.c:564). */
  predicate ErrorBits(b0: byte)
  {
    (b0 as bv8) & 0xFE != 0
  }

  lemma ErrorBitsIff(b0: byte)
    ensures ErrorBits(b0) <==> b0 >= 2
  {
  }

  /** The packet passes both tests of lidar.c:564. A checksum byte of 255 can
      never pass, and a passing status byte is 0 or the sync flag 1. */
  predicate PacketOk(p: seq<byte>)
    requires |p| >= PacketLen
    ensures PacketOk(p) ==> p[6] < 255 && p[0] <= 1
  {
    ErrorBitsIff(p[0]);
    Checksum(p) == p[6] as int && !ErrorBits(p[0])
  }

  /** A non-zero status byte in a good packet marks the start of a revolution. */
  predicate IsSync(p: seq<byte>)
    requires |p| >= PacketLen
  {
    p[0] != 0
  }

  /** A packet that passes validation has status 0 or 1, so it is a sync
      exactly when its status byte is 1. */
  lemma SyncIsStatusOne(p: seq<byte>)
    requires |p| >= PacketLen && PacketOk(p)
    ensures IsSync(p) <==> p[0] == 1
  {
  }

  // ---------------------------------------------------------------------
  // Field decoding

  /** `(hi << 8) | lo`: a little-endian 16-bit field. */
  function Le16(lo: byte, hi: byte): (v: int)
    ensures 0 <= v < 0x1_0000
    ensures v % 256 == lo as int && v / 256 == hi as int
  {
    hi as int * 256 + lo as int
  }

  /** Angle in 1/16 degree, bytes 1-2 (lidar.c:594). */
  function DegPer16(p: seq<byte>): int
    requires |p| >= PacketLen
  {
    Le16(p[1], p[2])
  }

  /** Distance in centimetres, bytes 3-4 (lidar.c:595). */
  function LengthCm(p: seq<byte>): int
    requires |p| >= PacketLen
  {
    Le16(p[3], p[4])
  }

  /** `degper16 >> 3`: the half-degree slot the angle falls in (lidar.c:598).
      It lies inside the 720-slot scan exactly when the angle is below a full
      turn. */
  function Slot(p: seq<byte>): (r: nat)
    requires |p| >= PacketLen
    ensures 8 * r <= DegPer16(p) < 8 * r + 8
    ensures r < SlotCount <==> DegPer16(p) < FullTurn16
  {
    DegPer16(p) / 8
  }

  // ---------------------------------------------------------------------
  // Fault penalty

  /** A packet costs penalty when it fails validation or when its slot is out
      of range. */
  predicate Charged(p: seq<byte>)
    requires |p| >= PacketLen
  {
    !PacketOk(p) || Slot(p) >= SlotCount
  }

  datatype Budget = Budget(penalty: int, tripped: bool)

  /** The new `chk_err_cnt` and whether the session goes to ERROR
      (lidar.c:564-581, 599-603). Only a failed validation can trip; a good
      packet first decays a nonzero penalty by one, and an out-of-range slot
      then adds the fault weight without testing the limit. */
  function Charge(p: seq<byte>, penalty: int): (b: Budget)
    requires |p| >= PacketLen
    ensures b.tripped <==> !PacketOk(p) && penalty + FaultWeight > FaultLimit
    ensures !PacketOk(p) ==> b.penalty == penalty + FaultWeight
    ensures penalty >= 0 ==> b.penalty >= 0
    ensures penalty >= 0 && Charged(p) ==> b.penalty <= penalty + FaultWeight
    ensures PacketOk(p) && Slot(p) >= SlotCount ==>
      b.penalty == (if penalty != 0 then penalty - 1 else 0) + FaultWeight
    ensures penalty >= 0 && !Charged(p) ==> b.penalty == if penalty == 0 then 0 else penalty - 1
  {
    if !PacketOk(p) then
      Budget(penalty + FaultWeight, penalty + FaultWeight > FaultLimit)
    else
      var decayed := if penalty != 0 then penalty - 1 else penalty;
      if Slot(p) > SlotCount - 1 then Budget(decayed + FaultWeight, false)
      else Budget(decayed, false)
  }

  // ---------------------------------------------------------------------
  // Fixed-point geometry

  /** Conversion to `uint32_t`: reduction modulo 2^32. */
  function U32(v: int): (r: int)
    ensures 0 <= r < Two32
    ensures (v - r) % Two32 == 0
  {
    v % Two32
  }

  /** Two's-complement wrap of a signed 32-bit result. */
  function I32(v: int): (r: int)
    ensures -Two31 <= r < Two31
    ensures (v - r) % Two32 == 0
    ensures -Two31 <= v < Two31 ==> r == v
  {
    (v + Two31) % Two32 - Two31
  }

  /** `x >> s` for a non-negative `x`: `s` halvings, each rounding down. A
      shift by at least one brings a 32-bit value into `int32_t` range. */
  function Shr(x: int, s: nat): (r: int)
    requires 0 <= x
    ensures 0 <= r <= x
    ensures s >= 1 ==> r <= x / 2
  {
    if s == 0 then x else Shr(x / 2, s - 1)
  }

  lemma MulMono(a: int, b: int, c: int, d: int)
    requires 0 <= a <= b && 0 <= c <= d
    ensures a * c <= b * d
  {
    assert a * c <= b * c;
  }

  /** `ang32`: the pose heading plus the sample angle, wrapping at a full turn
      (lidar.c:613). */
  function Heading(p: seq<byte>, pos: Pose, t: Trig): (h: int)
    requires |p| >= PacketLen
    ensures 0 <= h < Two32
    ensures (h - (pos.ang + DegPer16(p) * t.angPer16)) % Two32 == 0
  {
    U32(U32(pos.ang) + DegPer16(p) * t.angPer16)
  }

  /** `y_idx`, the sine of the heading (lidar.c:614). */
  function SinIndex(h: int, t: Trig): (i: int)
    requires 0 <= h < Two32 && ValidTrig(t)
    ensures 0 <= i < Two31
  {
    Shr(h, t.shift)
  }

  /** `x_idx`, the sine of a quarter turn minus the heading, i.e. its cosine
      (lidar.c:615). */
  function CosIndex(h: int, t: Trig): (i: int)
    requires 0 <= h < Two32 && ValidTrig(t)
    ensures 0 <= i < Two31
  {
    Shr(U32(QuarterTurn - h), t.shift)
  }

  /** The cosine argument and the heading add up to a quarter turn modulo a
      full turn. */
  lemma CosArgumentIsComplement(h: int)
    requires 0 <= h < Two32
    ensures (U32(QuarterTurn - h) + h) % Two32 == QuarterTurn
  {
    var c := U32(QuarterTurn - h);
    assert (QuarterTurn - h - c) % Two32 == 0;
    var k := (QuarterTurn - h - c) / Two32;
    assert c + h == QuarterTurn - k * Two32;
  }

  /** `((int32_t)lut * (int32_t)len) >> 15` with a 32-bit product and an
      arithmetic shift, which rounds toward minus infinity like Euclidean
      division by a positive number. */
  function FixMul(lut: int, lenMm: int): (r: int)
    ensures -0x1_0000 <= r < 0x1_0000
  {
    I32(lut * lenMm) / 0x8000
  }

  /** The world coordinates written for a sample (lidar.c:611-619). */
  function PointX(p: seq<byte>, pos: Pose, t: Trig): (x: int)
    requires |p| >= PacketLen && ValidTrig(t)
    ensures -Two31 <= x < Two31
    ensures (x - pos.x - FixMul(t.sinLut(CosIndex(Heading(p, pos, t), t)), LengthCm(p) * 10)) % Two32 == 0
  {
    var v := pos.x + FixMul(t.sinLut(CosIndex(Heading(p, pos, t), t)), LengthCm(p) * 10);
    I32(v)
  }

  function PointY(p: seq<byte>, pos: Pose, t: Trig): (y: int)
    requires |p| >= PacketLen && ValidTrig(t)
    ensures -Two31 <= y < Two31
    ensures (y - pos.y - FixMul(t.sinLut(SinIndex(Heading(p, pos, t), t)), LengthCm(p) * 10)) % Two32 == 0
  {
    var v := pos.y + FixMul(t.sinLut(SinIndex(Heading(p, pos, t), t)), LengthCm(p) * 10);
    I32(v)
  }

  /** Within 6553 cm no 32-bit product can wrap for a table entry that fits an
      `int16_t`, so the offset from the robot is the exact rounded-down
      fixed-point product and is at most the distance in millimetres. */
  lemma FixMulExact(lut: int, lenCm: int)
    requires -0x8000 < lut < 0x8000
    requires 0 <= lenCm <= 6553
    ensures FixMul(lut, lenCm * 10) == (lut * (lenCm * 10)) / 0x8000
    ensures -(lenCm * 10) <= FixMul(lut, lenCm * 10) <= lenCm * 10
  {
    var m := lenCm * 10;
    var prod := lut * m;
    if lut >= 0 {
      MulMono(lut, 0x7FFF, m, m);
    } else {
      MulMono(-lut, 0x7FFF, m, m);
      assert (-lut) * m == -prod;
    }
    assert -0x7FFF * m <= prod <= 0x7FFF * m;
    assert I32(prod) == prod;
    var q := prod / 0x8000;
    assert q * 0x8000 <= prod < q * 0x8000 + 0x8000;
  }

  /** The decoded point lies within the measured distance of the robot on
      both axes, for distances and poses where nothing wraps. */
  lemma PointNearPose(p: seq<byte>, pos: Pose, t: Trig)
    requires |p| >= PacketLen && ValidTrig(t)
    requires forall i :: -0x8000 < t.sinLut(i) < 0x8000
    requires LengthCm(p) <= 6553
    requires -0x4000_0000 <= pos.x < 0x4000_0000 && -0x4000_0000 <= pos.y < 0x4000_0000
    ensures -(LengthCm(p) * 10) <= PointX(p, pos, t) - pos.x <= LengthCm(p) * 10
    ensures -(LengthCm(p) * 10) <= PointY(p, pos, t) - pos.y <= LengthCm(p) * 10
  {
    var h := Heading(p, pos, t);
    FixMulExact(t.sinLut(CosIndex(h, t)), LengthCm(p));
    FixMulExact(t.sinLut(SinIndex(h, t)), LengthCm(p));
  }

  // ---------------------------------------------------------------------
  // The whole RUNNING arm on one packet

  datatype SlotWrite = NoWrite | MarkInvalid(slot: nat) | Store(slot: nat, x: int, y: int)

  datatype Outcome = Outcome(budget: Budget, sync: bool, write: SlotWrite)

  /** What one packet does: the budget update, whether the buffer roles swap,
      and which single slot of the acquisition buffer is written
      (lidar.c:558-624). */
  function Decode(p: seq<byte>, penalty: int, pos: Pose, t: Trig): (o: Outcome)
    requires |p| >= PacketLen && ValidTrig(t)
    ensures o.budget == Charge(p, penalty)
    ensures o.sync <==> PacketOk(p) && p[0] == 1
    ensures o.write != NoWrite <==> !Charged(p)
    ensures o.write != NoWrite ==> o.write.slot == Slot(p) < SlotCount
    ensures o.write.MarkInvalid? <==> !Charged(p) && LengthCm(p) < 2
    ensures o.write.Store? ==> o.write.x == PointX(p, pos, t) && o.write.y == PointY(p, pos, t)
  {
    var b := Charge(p, penalty);
    if !PacketOk(p) then Outcome(b, false, NoWrite)
    else
      var sync := IsSync(p);
      if Slot(p) > SlotCount - 1 then Outcome(b, sync, NoWrite)
      else if LengthCm(p) < 2 then Outcome(b, sync, MarkInvalid(Slot(p)))
      else Outcome(b, sync, Store(Slot(p), PointX(p, pos, t), PointY(p, pos, t)))
  }

  /** The scan buffer after a slot write: only the written slot changes, and a
      "no return" mark keeps the slot's old coordinates. */
  function Apply(w: SlotWrite, s: seq<Sample>): (r: seq<Sample>)
    requires w != NoWrite ==> w.slot < |s|
    ensures |r| == |s|
    ensures forall k | 0 <= k < |s| && (w == NoWrite || k != w.slot) :: r[k] == s[k]
    ensures w.MarkInvalid? ==> !r[w.slot].valid && r[w.slot].x == s[w.slot].x && r[w.slot].y == s[w.slot].y
    ensures w.Store? ==> r[w.slot] == Sample(true, w.x, w.y)
  {
    match w
    case NoWrite => s
    case MarkInvalid(k) => s[k := s[k].(valid := false)]
    case Store(k, x, y) => s[k := Sample(true, x, y)]
  }
}

=== FILE: protocol.dfy ===
/** The Scanse Sweep session state machine of lidar.c: the run/stop controls
    `lidar_on`/`lidar_off` (lidar.c:375-392), the 1 kHz tick `lidar_fsm`
    (lidar.c:396-431) and the reply-received interrupt
    `lidar_rx_done_inthandler` (lidar.c:433-632), here as pure transition
    functions over a snapshot of the driver's variables. The scan buffers the
    RUNNING arm writes are handled by the driver class. */
module Protocol {
  import opened Bytes
  import opened Packet

  /** `lidar_state_t` (lidar.c:327-340) plus `Reconf`, which `lidar_on`
      assigns (lidar.c:383) but which no case of either entry point handles. */
  datatype State =
    | Uninit | Off | WaitPowered | PreconfWaitReady | Conf1 | Conf2
    | WaitReady | WaitStartAck | Running | Error | Reconf

  /** What the driver asks of the serial transport: `lidar_send_cmd`
      transmits `tx` from `lidar_txbuf` and expects a reply of `rxLen` bytes;
      `lidar_start_acq` switches reception to continuous 7-byte packets. */
  datatype TransportOp = SendCmd(tx: seq<byte>, rxLen: nat) | StartAcq

  /** The driver's module-level variables: `cur_lidar_state`, `lidar_fps`,
      `lidar_smp`, the sensor power enable, `powerwait_cnt`,
      `wait_ready_poll_cnt`, `chk_err_cnt` and `lidar_error_flags`, together
      with the log of transport requests made so far. */
  datatype Session = Session(
    state: State,
    fps: int,
    smp: int,
    powered: bool,
    powerwaitCnt: int,
    pollCnt: int,
    penalty: int,
    errorFlags: byte,
    io: seq<TransportOp>)

  /** `lidar_rxbuf[k]` holds 16 bytes. */
  const RxBufLen: nat := 16
  const PowerSettleTicks: int := 2000
  const FirstPollDelay: int := 1000
  const RepollDelay: int := 100

  // ---------------------------------------------------------------------
  // Command and reply frames

  const MotorQuery: seq<byte> := Ascii("MZ\n")
  const MotorReady: seq<byte> := Ascii("MZ00")
  const StartCmd: seq<byte> := Ascii("DS\n")
  /** The start acknowledgement; 'P' is the reply checksum of status "00". */
  const StartAck: seq<byte> := Ascii("DS00P")
  const OkStatus: seq<byte> := Ascii("00P\n")

  function SetSpeed(fps: int): seq<byte>
    requires 1 <= fps <= 5
  {
    Ascii("MS0") + [Digit(fps), LF]
  }

  function SetRate(smp: int): seq<byte>
    requires 1 <= smp <= 3
  {
    Ascii("LR0") + [Digit(smp), LF]
  }

  /** The variables as the C runtime zero-initialises them, with the
      initialisers `lidar_fps = 2` and `lidar_smp = 2` (lidar.c:368-369). */
  const Initial: Session := Session(Uninit, 2, 2, false, 0, 0, 0, 0, [])

  /** What every entry point keeps: the stored configuration is one the sensor
      accepts, the fault penalty never goes negative and the power-settle
      counter never passes its limit. */
  predicate Inv(s: Session)
  {
    1 <= s.fps <= 5 && 1 <= s.smp <= 3 && s.penalty >= 0 &&
    0 <= s.powerwaitCnt <= PowerSettleTicks
  }

  /** The three states in which a reply must echo the last command. */
  predicate AwaitsEcho(st: State)
  {
    st == Conf1 || st == Conf2 || st == WaitStartAck
  }

  /** The two states that poll whether the motor speed has stabilised. */
  predicate Polling(st: State)
  {
    st == PreconfWaitReady || st == WaitReady
  }

  /** The states neither the tick nor a reply can leave. */
  predicate Inert(st: State)
  {
    st == Uninit || st == Off || st == Error || st == Reconf
  }

  /** The reply an echo state compares byte for byte (lidar.c:463-471,
      492-500, 538-542). */
  function ConfigEcho(s: Session): (e: seq<byte>)
    requires Inv(s) && AwaitsEcho(s.state)
    ensures 5 <= |e| <= 9
  {
    match s.state
    case Conf1 => SetSpeed(s.fps) + OkStatus
    case Conf2 => SetRate(s.smp) + OkStatus
    case WaitStartAck => StartAck
  }

  /** Where a matching echo leads. */
  function Advance(st: State): State
    requires AwaitsEcho(st)
  {
    match st
    case Conf1 => Conf2
    case Conf2 => WaitReady
    case WaitStartAck => Running
  }

  // ---------------------------------------------------------------------
  // Entry points

  /** `lidar_on` (lidar.c:375-386): an out-of-range request changes nothing;
      otherwise both settings are stored, power is enabled, and the state
      moves to `Reconf` from `Running` and to `WaitPowered` from any other
      state. */
  function OnSpec(s: Session, fps: int, smp: int): (r: Session)
    requires Inv(s)
    ensures Inv(r)
    ensures !(1 <= fps <= 5 && 1 <= smp <= 3) ==> r == s
    ensures 1 <= fps <= 5 && 1 <= smp <= 3 ==>
      r.fps == fps && r.smp == smp && r.powered &&
      r.state == (if s.state == Running then Reconf else WaitPowered) &&
      r.powerwaitCnt == s.powerwaitCnt && r.pollCnt == s.pollCnt &&
      r.penalty == s.penalty && r.io == s.io
    ensures r.errorFlags == s.errorFlags
  {
    if fps < 1 || fps > 5 || smp < 1 || smp > 3 then s
    else
      var r := s.(fps := fps, smp := smp, powered := true);
      if s.state == Running then r.(state := Reconf) else r.(state := WaitPowered)
  }

  /** `lidar_off` (lidar.c:388-392): power off and `Off` from every state;
      no counter is reset. */
  function OffSpec(s: Session): (r: Session)
    requires Inv(s)
    ensures Inv(r)
    ensures r.state == Off && !r.powered
    ensures r.(state := s.state, powered := s.powered) == s
  {
    s.(powered := false, state := Off)
  }

  /** `lidar_fsm` (lidar.c:396-431). The only state change it makes is from
      `WaitPowered` to `PreconfWaitReady`, once the settle counter exceeds
      2000; it transmits only the motor-status query, and only on the tick
      that brings the poll countdown of a polling state to zero. */
  function TickSpec(s: Session): (r: Session)
    requires Inv(s)
    ensures Inv(r)
    ensures r.state != s.state ==>
      s.state == WaitPowered && r.state == PreconfWaitReady &&
      r.powerwaitCnt == 0 && r.pollCnt == FirstPollDelay
    ensures r.io == s.io + (if Polling(s.state) && s.pollCnt == 1 then [SendCmd(MotorQuery, 4)] else [])
    ensures r.fps == s.fps && r.smp == s.smp && r.powered == s.powered
    ensures r.penalty == s.penalty && r.errorFlags == s.errorFlags
    ensures s.state != WaitPowered && !Polling(s.state) ==> r == s
  {
    match s.state
    case WaitPowered =>
      if s.powerwaitCnt + 1 > PowerSettleTicks then
        s.(powerwaitCnt := 0, pollCnt := FirstPollDelay, state := PreconfWaitReady)
      else
        s.(powerwaitCnt := s.powerwaitCnt + 1)
    case PreconfWaitReady | WaitReady =>
      var c := s.pollCnt - 1;
      if c == 0 then s.(pollCnt := c, io := s.io + [SendCmd(MotorQuery, 4)])
      else s.(pollCnt := c)
    case _ => s
  }

  /** The reply a polling or echo state waits for. */
  function ExpectedReply(s: Session): (e: seq<byte>)
    requires Inv(s) && (Polling(s.state) || AwaitsEcho(s.state))
    ensures |e| <= RxBufLen
  {
    if Polling(s.state) then MotorReady else ConfigEcho(s)
  }

  /** Whether the configuration arm of the current state recognises the
      receive buffer: the first bytes of buffer 0 equal the expected reply. */
  predicate Recognised(s: Session, rx: seq<byte>)
    requires Inv(s)
  {
    (Polling(s.state) || AwaitsEcho(s.state)) && StartsWith(rx, ExpectedReply(s))
  }

  /** The configuration arms of `lidar_rx_done_inthandler`
      (lidar.c:437-556), given whether the reply was recognised. */
  function ConfigReply(s: Session, matched: bool): (r: Session)
    requires Inv(s) && s.state != Running
    ensures Inv(r)
    ensures r.fps == s.fps && r.smp == s.smp && r.powered == s.powered
    ensures r.powerwaitCnt == s.powerwaitCnt && r.errorFlags == s.errorFlags
    ensures AwaitsEcho(s.state) ==> r.state == (if matched then Advance(s.state) else Error)
    ensures Polling(s.state) && !matched ==> r == s.(pollCnt := RepollDelay)
    ensures Polling(s.state) && matched ==>
      r.state == (if s.state == PreconfWaitReady then Conf1 else WaitStartAck)
    ensures |s.io| <= |r.io| <= |s.io| + 1 && r.io[..|s.io|] == s.io
    ensures |r.io| == |s.io| + 1 <==> matched && (Polling(s.state) || AwaitsEcho(s.state)) && s.state != Conf2
    ensures r.penalty == (if matched && s.state == WaitStartAck then 0 else s.penalty)
    ensures !Polling(s.state) && !AwaitsEcho(s.state) ==> r == s
  {
    match s.state
    case PreconfWaitReady =>
      if matched then s.(io := s.io + [SendCmd(SetSpeed(s.fps), 9)], state := Conf1)
      else s.(pollCnt := RepollDelay)
    case Conf1 =>
      if matched then s.(io := s.io + [SendCmd(SetRate(s.smp), 9)], state := Conf2)
      else s.(state := Error)
    case Conf2 =>
      if matched then s.(pollCnt := FirstPollDelay, state := WaitReady)
      else s.(state := Error)
    case WaitReady =>
      if matched then s.(io := s.io + [SendCmd(StartCmd, 6)], state := WaitStartAck)
      else s.(pollCnt := RepollDelay)
    case WaitStartAck =>
      if matched then s.(io := s.io + [StartAcq], state := Running, penalty := 0)
      else s.(state := Error)
    case _ => s
  }

  /** The RUNNING arm (lidar.c:558-624) as far as the session variables go:
      only the fault budget and, when it trips, the state and the recorded
      status byte change. */
  function PacketReply(s: Session, rx: seq<byte>): (r: Session)
    requires Inv(s) && |rx| == RxBufLen
    ensures Inv(r)
    ensures r.penalty == Charge(rx, s.penalty).penalty
    ensures r.state == (if Charge(rx, s.penalty).tripped then Error else s.state)
    ensures r.errorFlags == (if Charge(rx, s.penalty).tripped then rx[0] else s.errorFlags)
    ensures r.(penalty := s.penalty, state := s.state, errorFlags := s.errorFlags) == s
  {
    var b := Charge(rx, s.penalty);
    if b.tripped then s.(penalty := b.penalty, state := Error, errorFlags := rx[0])
    else s.(penalty := b.penalty)
  }

  /** `lidar_rx_done_inthandler` (lidar.c:433-632) on the receive buffer `rx`,
      as far as the session variables go. A stabilised-motor reply moves a
      polling state on and anything else re-arms the poll; an echo state
      advances exactly when the echo matches and otherwise fails; while
      running, only the fault budget and the error status change. */
  function RxSpec(s: Session, rx: seq<byte>): (r: Session)
    requires Inv(s) && |rx| == RxBufLen
    ensures Inv(r)
    ensures r.fps == s.fps && r.smp == s.smp && r.powered == s.powered
    ensures r.powerwaitCnt == s.powerwaitCnt
    ensures AwaitsEcho(s.state) ==>
      (r.state == Error <==> !StartsWith(rx, ConfigEcho(s))) &&
      (r.state != Error ==> r.state == Advance(s.state))
    ensures Polling(s.state) ==>
      if StartsWith(rx, MotorReady)
      then r.state == (if s.state == PreconfWaitReady then Conf1 else WaitStartAck)
      else r == s.(pollCnt := RepollDelay)
    ensures s.state == Running ==>
      r.io == s.io && r.pollCnt == s.pollCnt &&
      r.penalty == Charge(rx, s.penalty).penalty &&
      (r.state == Error <==> Charge(rx, s.penalty).tripped) &&
      (r.state != Error ==> r.state == Running && r.errorFlags == s.errorFlags) &&
      (r.state == Error ==> r.errorFlags == rx[0])
    ensures s.state == WaitPowered || Inert(s.state) ==> r == s
    ensures Recognised(s, rx) && s.state == PreconfWaitReady ==>
      r == s.(io := s.io + [SendCmd(SetSpeed(s.fps), 9)], state := Conf1)
    ensures Recognised(s, rx) && s.state == Conf1 ==>
      r == s.(io := s.io + [SendCmd(SetRate(s.smp), 9)], state := Conf2)
    ensures Recognised(s, rx) && s.state == Conf2 ==>
      r == s.(pollCnt := FirstPollDelay, state := WaitReady)
    ensures Recognised(s, rx) && s.state == WaitReady ==>
      r == s.(io := s.io + [SendCmd(StartCmd, 6)], state := WaitStartAck)
    ensures Recognised(s, rx) && s.state == WaitStartAck ==>
      r == s.(io := s.io + [StartAcq], state := Running, penalty := 0)
    ensures AwaitsEcho(s.state) && !Recognised(s, rx) ==> r == s.(state := Error)
  {
    if s.state == Running then PacketReply(s, rx)
    else ConfigReply(s, Recognised(s, rx))
  }

  // ---------------------------------------------------------------------
  // Runs of events

  /** One call of an entry point of the driver. */
  datatype Event = On(fps: int, smp: int) | Stop | Tick | Reply(rx: seq<byte>)

  predicate WellFormed(e: Event)
  {
    e.Reply? ==> |e.rx| == RxBufLen
  }

  predicate AllWellFormed(es: seq<Event>)
  {
    forall e | e in es :: WellFormed(e)
  }

  function Step(s: Session, e: Event): (r: Session)
    requires Inv(s) && WellFormed(e)
    ensures Inv(r)
  {
    match e
    case On(fps, smp) => OnSpec(s, fps, smp)
    case Stop => OffSpec(s)
    case Tick => TickSpec(s)
    case Reply(rx) => RxSpec(s, rx)
  }

  /** The session after the events `es`, one after another. */
  function Run(s: Session, es: seq<Event>): (r: Session)
    requires Inv(s) && AllWellFormed(es)
    ensures Inv(r)
    decreases |es|
  {
    if es == [] then s else Run(Step(s, es[0]), es[1..])
  }

  function Ticks(n: nat): (es: seq<Event>)
    ensures |es| == n && forall e | e in es :: e == Tick
  {
    seq(n, _ => Tick)
  }

  lemma {:induction false} RunAppend(s: Session, a: seq<Event>, b: seq<Event>)
    requires Inv(s) && AllWellFormed(a) && AllWellFormed(b)
    ensures AllWellFormed(a + b)
    ensures Run(s, a + b) == Run(Run(s, a), b)
    decreases |a|
  {
    if a == [] {
      assert a + b == b;
    } else {
      assert (a + b)[1..] == a[1..] + b;
      RunAppend(Step(s, a[0]), a[1..], b);
    }
  }

  // ---------------------------------------------------------------------
  // Properties of the tick

  /** While the sensor powers up, each tick counts once; the tick that takes
      the counter past 2000 arms the first poll 1000 ticks ahead and enters
      `PreconfWaitReady`. */
  lemma {:induction false} PowerSettle(s: Session, n: nat)
    requires Inv(s) && s.state == WaitPowered
    requires n <= PowerSettleTicks + 1 - s.powerwaitCnt
    ensures n < PowerSettleTicks + 1 - s.powerwaitCnt ==>
      Run(s, Ticks(n)) == s.(powerwaitCnt := s.powerwaitCnt + n)
    ensures n == PowerSettleTicks + 1 - s.powerwaitCnt ==>
      Run(s, Ticks(n)) == s.(powerwaitCnt := 0, pollCnt := FirstPollDelay, state := PreconfWaitReady)
    decreases n
  {
    if n > 0 {
      assert Ticks(n)[1..] == Ticks(n - 1);
      if s.powerwaitCnt == PowerSettleTicks {
        assert Ticks(n - 1) == [];
      } else {
        PowerSettle(TickSpec(s), n - 1);
      }
    }
  }

  /** In a polling state each tick counts the poll down; exactly the tick
      that reaches zero transmits `"MZ\n"` and expects a 4-byte reply. */
  lemma {:induction false} PollCountdown(s: Session, n: nat)
    requires Inv(s) && Polling(s.state)
    requires 1 <= s.pollCnt && n <= s.pollCnt
    ensures Run(s, Ticks(n)) ==
      s.(pollCnt := s.pollCnt - n,
         io := s.io + (if n == s.pollCnt then [SendCmd(MotorQuery, 4)] else []))
    decreases n
  {
    if n > 0 {
      assert Ticks(n)[1..] == Ticks(n - 1);
      var t := TickSpec(s);
      if s.pollCnt == 1 {
        assert Ticks(n - 1) == [];
      } else {
        PollCountdown(t, n - 1);
      }
    }
  }

  /** Once the countdown has passed zero without a reply, no tick ever polls
      again: a lost reply is not retried. */
  lemma {:induction false} NoRepollWithoutReply(s: Session, n: nat)
    requires Inv(s) && Polling(s.state) && s.pollCnt <= 0
    ensures Run(s, Ticks(n)) == s.(pollCnt := s.pollCnt - n)
    decreases n
  {
    if n > 0 {
      assert Ticks(n)[1..] == Ticks(n - 1);
      NoRepollWithoutReply(TickSpec(s), n - 1);
    }
  }

  // ---------------------------------------------------------------------
  // Properties of the replies

  /** Changing any one compared byte of a matching echo sends the session to
      `Error`, whichever echo state it is in. */
  lemma OneByteOffFails(s: Session, rx: seq<byte>, k: nat, b: byte)
    requires Inv(s) && AwaitsEcho(s.state) && |rx| == RxBufLen
    requires StartsWith(rx, ConfigEcho(s))
    requires k < |ConfigEcho(s)| && b != rx[k]
    ensures RxSpec(s, rx).state == Advance(s.state)
    ensures RxSpec(s, rx[k := b]).state == Error
  {
    var e := ConfigEcho(s);
    assert rx[k := b][..|e|][k] != e[k];
  }

  /** Only `lidar_on` and `lidar_off` can take the session out of `Uninit`,
      `Off`, `Error` or the unhandled `Reconf`: ticks and replies leave it
      exactly as it is. */
  lemma {:induction false} InertStaysPut(s: Session, es: seq<Event>)
    requires Inv(s) && Inert(s.state) && AllWellFormed(es)
    requires forall e | e in es :: e.Tick? || e.Reply?
    ensures Run(s, es) == s
    decreases |es|
  {
    if es != [] {
      assert es[0] in es;
      assert Step(s, es[0]) == s;
      assert forall e | e in es[1..] :: e in es;
      InertStaysPut(s, es[1..]);
    }
  }

  /** The replies of the configuration handshake: "stabilised", then the
      speed echo, then the sample-rate echo. */
  function ConfigScript(fps: int, smp: int): seq<Event>
    requires 1 <= fps <= 5 && 1 <= smp <= 3
  {
    [Reply(Padded(MotorReady, RxBufLen)),
     Reply(Padded(SetSpeed(fps) + OkStatus, RxBufLen)),
     Reply(Padded(SetRate(smp) + OkStatus, RxBufLen))]
  }

  /** The second stabilisation poll, answered, and the start acknowledgement. */
  function StartScript(): seq<Event>
  {
    Ticks(FirstPollDelay) + [Reply(Padded(MotorReady, RxBufLen)), Reply(Padded(StartAck, RxBufLen))]
  }

  /** The power settle delay followed by the countdown to the first poll. */
  function PowerUpScript(settle: nat): seq<Event>
  {
    Ticks(settle) + Ticks(FirstPollDelay)
  }

  /** A clean bring-up: the power settle delay, the first poll, the
      configuration handshake and the start handshake. */
  function BringUpScript(fps: int, smp: int, settle: nat): seq<Event>
    requires 1 <= fps <= 5 && 1 <= smp <= 3
  {
    PowerUpScript(settle) + (ConfigScript(fps, smp) + StartScript())
  }

  /** From power-up, the settle delay and the first countdown send the first
      motor-status query. */
  lemma PowerUpToFirstPoll(s: Session)
    requires Inv(s) && s.state == WaitPowered
    ensures AllWellFormed(PowerUpScript(PowerSettleTicks + 1 - s.powerwaitCnt))
    ensures Run(s, PowerUpScript(PowerSettleTicks + 1 - s.powerwaitCnt)) ==
      s.(powerwaitCnt := 0, pollCnt := 0, state := PreconfWaitReady,
         io := s.io + [SendCmd(MotorQuery, 4)])
  {
    var settle := PowerSettleTicks + 1 - s.powerwaitCnt;
    var a := Ticks(settle);
    var b := Ticks(FirstPollDelay);
    PowerSettle(s, settle);
    var s1 := s.(powerwaitCnt := 0, pollCnt := FirstPollDelay, state := PreconfWaitReady);
    PollCountdown(s1, FirstPollDelay);
    RunAppend(s, a, b);
  }

  /** In `Conf1`, the speed echo and then the rate echo send the rate
      command and arm the second poll. */
  lemma ConfigEchoes(s: Session)
    requires Inv(s) && s.state == Conf1
    ensures AllWellFormed(ConfigScript(s.fps, s.smp)[1..])
    ensures Run(s, ConfigScript(s.fps, s.smp)[1..]) ==
      s.(state := WaitReady, pollCnt := FirstPollDelay,
         io := s.io + [SendCmd(SetRate(s.smp), 9)])
  {
    var es := ConfigScript(s.fps, s.smp)[1..];
    assert Recognised(s, es[0].rx);
    var s2 := RxSpec(s, es[0].rx);
    assert s2 == s.(io := s.io + [SendCmd(SetRate(s.smp), 9)], state := Conf2);
    assert Recognised(s2, es[1].rx);
    var s3 := RxSpec(s2, es[1].rx);
    assert Run(s, es) == Run(s2, es[1..]);
    assert Run(s2, es[1..]) == Run(s3, es[2..]);
    assert es[2..] == [];
  }

  /** From the first poll, the configuration handshake sets the speed and the
      sample rate and arms the second poll. */
  lemma ConfigHandshake(s: Session)
    requires Inv(s) && s.state == PreconfWaitReady
    ensures AllWellFormed(ConfigScript(s.fps, s.smp))
    ensures Run(s, ConfigScript(s.fps, s.smp)) ==
      s.(state := WaitReady, pollCnt := FirstPollDelay,
         io := s.io + [SendCmd(SetSpeed(s.fps), 9), SendCmd(SetRate(s.smp), 9)])
  {
    var es := ConfigScript(s.fps, s.smp);
    assert Recognised(s, es[0].rx);
    var s1 := RxSpec(s, es[0].rx);
    assert s1 == s.(io := s.io + [SendCmd(SetSpeed(s.fps), 9)], state := Conf1);
    ConfigEchoes(s1);
    assert Run(s, es) == Run(s1, es[1..]);
    assert s1.io + [SendCmd(SetRate(s.smp), 9)] ==
      s.io + [SendCmd(SetSpeed(s.fps), 9), SendCmd(SetRate(s.smp), 9)];
  }

  /** In `WaitReady`, a stabilised-motor reply followed by the start
      acknowledgement sends the start command and starts streaming with a
      clean fault budget. */
  lemma StartReplies(s: Session)
    requires Inv(s) && s.state == WaitReady
    ensures AllWellFormed([Reply(Padded(MotorReady, RxBufLen)), Reply(Padded(StartAck, RxBufLen))])
    ensures Run(s, [Reply(Padded(MotorReady, RxBufLen)), Reply(Padded(StartAck, RxBufLen))]) ==
      s.(state := Running, penalty := 0, io := s.io + [SendCmd(StartCmd, 6), StartAcq])
  {
    var r1, r2 := Padded(MotorReady, RxBufLen), Padded(StartAck, RxBufLen);
    var rs := [Reply(r1), Reply(r2)];
    assert Recognised(s, r1);
    var s2 := RxSpec(s, r1);
    assert s2 == s.(io := s.io + [SendCmd(StartCmd, 6)], state := WaitStartAck);
    assert Recognised(s2, r2);
    var s3 := RxSpec(s2, r2);
    assert Run(s, rs) == Run(s2, rs[1..]);
    assert Run(s2, rs[1..]) == Run(s3, rs[2..]);
    assert rs[2..] == [];
  }

  /** After the configuration, the answered second poll and the start
      acknowledgement start streaming with a clean fault budget. */
  lemma StartHandshake(s: Session)
    requires Inv(s) && s.state == WaitReady && s.pollCnt == FirstPollDelay
    ensures AllWellFormed(StartScript())
    ensures Run(s, StartScript()) ==
      s.(state := Running, penalty := 0, pollCnt := 0,
         io := s.io + [SendCmd(MotorQuery, 4), SendCmd(StartCmd, 6), StartAcq])
  {
    var t := Ticks(FirstPollDelay);
    var rs := [Reply(Padded(MotorReady, RxBufLen)), Reply(Padded(StartAck, RxBufLen))];
    assert AllWellFormed(t);
    PollCountdown(s, FirstPollDelay);
    var s1 := s.(pollCnt := 0, io := s.io + [SendCmd(MotorQuery, 4)]);
    StartReplies(s1);
    RunAppend(s, t, rs);
    assert StartScript() == t + rs;
    assert s1.io + [SendCmd(StartCmd, 6), StartAcq] ==
      s.io + [SendCmd(MotorQuery, 4), SendCmd(StartCmd, 6), StartAcq];
  }

  /** Starting from power-up, the scripted replies bring the session to
      `Running` with a clean fault budget, having sent exactly the five
      commands of the handshake and enabled packet streaming exactly once. */
  lemma BringUp(s: Session)
    requires Inv(s) && s.state == WaitPowered
    ensures AllWellFormed(BringUpScript(s.fps, s.smp, PowerSettleTicks + 1 - s.powerwaitCnt))
    ensures var r := Run(s, BringUpScript(s.fps, s.smp, PowerSettleTicks + 1 - s.powerwaitCnt));
      r.state == Running && r.penalty == 0 && r.fps == s.fps && r.smp == s.smp &&
      r.io == s.io + [SendCmd(MotorQuery, 4), SendCmd(SetSpeed(s.fps), 9),
                      SendCmd(SetRate(s.smp), 9), SendCmd(MotorQuery, 4),
                      SendCmd(StartCmd, 6), StartAcq]
  {
    var settle := PowerSettleTicks + 1 - s.powerwaitCnt;
    var p := PowerUpScript(settle);
    var cd := ConfigScript(s.fps, s.smp) + StartScript();
    PowerUpToFirstPoll(s);
    var s2 := s.(powerwaitCnt := 0, pollCnt := 0, state := PreconfWaitReady,
                 io := s.io + [SendCmd(MotorQuery, 4)]);
    FirstPollToRunning(s2);
    RunAppend(s, p, cd);
    assert BringUpScript(s.fps, s.smp, settle) == p + cd;
    assert s2.io + [SendCmd(SetSpeed(s.fps), 9), SendCmd(SetRate(s.smp), 9),
                    SendCmd(MotorQuery, 4), SendCmd(StartCmd, 6), StartAcq]
        == s.io + [SendCmd(MotorQuery, 4), SendCmd(SetSpeed(s.fps), 9),
                   SendCmd(SetRate(s.smp), 9), SendCmd(MotorQuery, 4),
                   SendCmd(StartCmd, 6), StartAcq];
  }

  /** From the first poll, the configuration handshake and the start
      handshake reach `Running`. */
  lemma FirstPollToRunning(s: Session)
    requires Inv(s) && s.state == PreconfWaitReady
    ensures AllWellFormed(ConfigScript(s.fps, s.smp) + StartScript())
    ensures var r := Run(s, ConfigScript(s.fps, s.smp) + StartScript());
      r.state == Running && r.penalty == 0 && r.fps == s.fps && r.smp == s.smp &&
      r.io == s.io + [SendCmd(SetSpeed(s.fps), 9), SendCmd(SetRate(s.smp), 9),
                      SendCmd(MotorQuery, 4), SendCmd(StartCmd, 6), StartAcq]
  {
    var c := ConfigScript(s.fps, s.smp);
    var d := StartScript();
    ConfigHandshake(s);
    var s3 := s.(state := WaitReady, pollCnt := FirstPollDelay,
                 io := s.io + [SendCmd(SetSpeed(s.fps), 9), SendCmd(SetRate(s.smp), 9)]);
    StartHandshake(s3);
    RunAppend(s, c, d);
  }

  // ---------------------------------------------------------------------
  // Properties of the fault budget while running

  /** A packet event: a reply received while streaming. */
  predicate IsPacket(e: Event)
  {
    e.Reply? && |e.rx| == RxBufLen
  }

  /** How many of the packets cost penalty. */
  function ChargedCount(es: seq<Event>): (n: nat)
    requires forall e | e in es :: IsPacket(e)
    ensures n <= |es|
  {
    if es == [] then 0
    else
      var e0 := es[0];
      assert e0 in es;
      assert IsPacket(e0);
      assert forall e | e in es[1..] :: e in es;
      (if Charged(e0.rx) then 1 else 0) + ChargedCount(es[1..])
  }

  /** The decaying budget: from a penalty of p, a stream of packets of which
      c cost penalty keeps the session running whenever p + 20c <= 100, and
      the penalty ends no higher than p + 20c. */
  lemma {:induction false} BudgetKeepsRunning(s: Session, es: seq<Event>)
    requires Inv(s) && s.state == Running
    requires forall e | e in es :: IsPacket(e)
    requires s.penalty + FaultWeight * ChargedCount(es) <= FaultLimit
    ensures AllWellFormed(es)
    ensures Run(s, es).state == Running
    ensures Run(s, es).penalty <= s.penalty + FaultWeight * ChargedCount(es)
    decreases |es|
  {
    if es != [] {
      assert es[0] in es;
      assert forall e | e in es[1..] :: e in es;
      var t := RxSpec(s, es[0].rx);
      assert t.state == Running;
      BudgetKeepsRunning(t, es[1..]);
    }
  }

  /** A burst of packets that all fail validation adds 20 each; the session
      survives exactly while the total stays at or below 100, so from a clean
      budget five failures are tolerated and the sixth trips `Error`. */
  lemma {:induction false} FaultBurst(s: Session, es: seq<Event>)
    requires Inv(s) && s.state == Running
    requires forall e | e in es :: IsPacket(e) && !PacketOk(e.rx)
    ensures AllWellFormed(es)
    ensures es != [] ==>
      Run(s, es).state == (if s.penalty + FaultWeight * |es| > FaultLimit then Error else Running)
    ensures Run(s, es).state == Running ==> Run(s, es).penalty == s.penalty + FaultWeight * |es|
    decreases |es|
  {
    if es != [] {
      assert es[0] in es;
      assert forall e | e in es[1..] :: e in es;
      var t := RxSpec(s, es[0].rx);
      assert Run(s, es) == Run(t, es[1..]);
      assert t.penalty == s.penalty + FaultWeight;
      if t.state == Error {
        InertStaysPut(t, es[1..]);
      } else {
        FaultBurst(t, es[1..]);
      }
    }
  }

  /** Packets that pass validation never trip `Error`, however far their
      out-of-range angles push the penalty: that branch adds 20 without
      testing the limit. */
  lemma {:induction false} ValidPacketsNeverTrip(s: Session, es: seq<Event>)
    requires Inv(s) && s.state == Running
    requires forall e | e in es :: IsPacket(e) && PacketOk(e.rx)
    ensures AllWellFormed(es)
    ensures Run(s, es).state == Running
    decreases |es|
  {
    if es != [] {
      assert es[0] in es;
      assert forall e | e in es[1..] :: e in es;
      ValidPacketsNeverTrip(RxSpec(s, es[0].rx), es[1..]);
    }
  }

  // ---------------------------------------------------------------------
  // The receive-buffer comparison as written

  /** As written, the configuration arms compare `lidar_rxbuf[k]` with a
      character. `lidar_rxbuf` is `uint8_t[2][16]`, so `lidar_rxbuf[k]` is row
      `k`, which decays to its address: the buffer base plus 16 k. */
  function RowAddress(base: int, k: int): int
  {
    base + 16 * k
  }

  predicate MotorReadyAsWritten(base: int)
  {
    RowAddress(base, 0) == 'M' as int && RowAddress(base, 1) == 'Z' as int &&
    RowAddress(base, 2) == '0' as int && RowAddress(base, 3) == '0' as int
  }

  predicate SpeedAckAsWritten(base: int, fps: int)
  {
    RowAddress(base, 0) == 'M' as int && RowAddress(base, 1) == 'S' as int &&
    RowAddress(base, 2) == '0' as int && RowAddress(base, 3) == '0' as int + fps &&
    RowAddress(base, 4) == 10 && RowAddress(base, 5) == '0' as int &&
    RowAddress(base, 6) == '0' as int && RowAddress(base, 7) == 'P' as int &&
    RowAddress(base, 8) == 10
  }

  predicate RateAckAsWritten(base: int, smp: int)
  {
    RowAddress(base, 0) == 'L' as int && RowAddress(base, 1) == 'R' as int &&
    RowAddress(base, 2) == '0' as int && RowAddress(base, 3) == '0' as int + smp &&
    RowAddress(base, 4) == 10 && RowAddress(base, 5) == '0' as int &&
    RowAddress(base, 6) == '0' as int && RowAddress(base, 7) == 'P' as int &&
    RowAddress(base, 8) == 10
  }

  predicate StartAckAsWritten(base: int)
  {
    RowAddress(base, 0) == 'D' as int && RowAddress(base, 1) == 'S' as int &&
    RowAddress(base, 2) == '0' as int && RowAddress(base, 3) == '0' as int &&
    RowAddress(base, 4) == 'P' as int
  }

  /** Whether the configuration arm of the current state recognises the
      reply as written, for a receive buffer at address `base`. */
  predicate RecognisedAsWritten(s: Session, base: int)
  {
    match s.state
    case PreconfWaitReady | WaitReady => MotorReadyAsWritten(base)
    case Conf1 => SpeedAckAsWritten(base, s.fps)
    case Conf2 => RateAckAsWritten(base, s.smp)
    case WaitStartAck => StartAckAsWritten(base)
    case _ => false
  }

  /** Rows are 16 bytes apart, but no two consecutive expected characters
      are, so no reply is ever recognised: the polling states only re-arm
      their poll and every echo state fails, for any buffer address. */
  lemma AsWrittenNeverConfigures(s: Session, base: int)
    requires Inv(s) && s.state != Running
    ensures !RecognisedAsWritten(s, base)
    ensures Polling(s.state) ==> ConfigReply(s, RecognisedAsWritten(s, base)) == s.(pollCnt := RepollDelay)
    ensures AwaitsEcho(s.state) ==> ConfigReply(s, RecognisedAsWritten(s, base)).state == Error
  {
    assert 'Z' as int - 'M' as int != 16;
    assert 'S' as int - 'M' as int != 16;
    assert 'R' as int - 'L' as int != 16;
    assert 'S' as int - 'D' as int != 16;
  }
}
